=== FILE: README.md ===
# Babu record store — a Dafny model

Babu is a small embedded record store written in Python 2. A model class has
a fixed table of fields, each with a `max_length`. Each instance is encoded as
one row: every value right-padded with NUL to its field's width and never
truncated. A row of values that fit is exactly `row_width` bytes, the sum of
the field widths; a longer value makes a longer row, which `insert` and
`update` reject. Rows live back to back in one file, so record number `pk`
sits at byte `pk * row_width`. A deleted record is overwritten with
`row_width` NUL bytes and becomes a tombstone. A separate, experimental
prefix index keeps a trie of fixed-size pages in a memory-mapped block.

This project models that core as pure functions over immutable values:

- **`Common`** (`common.dfy`): bytes, the NUL fill byte, and the exceptions
  the store raises as a `Result` type. It also has `str.ljust` and Python's
  clamped slicing.
- **`RecordFile`** (`record_file.dfy`): the backing file as a byte sequence.
  - `seek`+`read` and `seek`+`write`, including short reads at end of file
    and writes that extend the file.
  - Slots and the pk/position conversions, which use Python 2's flooring
    `/`.
  - The tombstone test.
  - The scan of live slots that `fetch_all`, `all` and `count` perform.
- **`Schema`** (`schema.dfy`): the field table.
  - `IntegerField.max_length = len(str(2 ** 9))`, which is 3.
  - The row width and the field offsets.
  - The slicing of a row into fields, and the concatenation that builds it
    back.
- **`Connections`** (`connections.dfy`): `FileConnection`, with
  `insert`, `update`, `get`, `delete`, `fetch_all` and `count`.
- **`Storage`** (`storage.dfy`): `FixedLengthRecordStorage`, the older
  store that encodes instances itself. It has `calc_row_width`, `to_db` and
  `from_db`, and the same operations as `FileConnection`, plus a `count`
  that skips tombstones and `total_count`.
- **`Db`** (`db.dfy`): the object layer.
  - `Field`/`IntegerField` serialisation and `Model.to_db`/`from_db`.
  - `save` (create or update), `get`, `delete` and `all`, on top of
    `FileConnection`.
- **`Indexing`** (`indexing.dfy`): the trie index.
  - The 62-symbol alphabet `CHARSET` (lower-case letters, upper-case letters,
    digits).
  - Pages with 10 data pointers and 62 child pointers; a block of 1000 pages.
  - `Page.goto`, `Page.add_data_ptr`, `Block.root`, `Block.add_page`,
    `FieldIndex.find` and `FieldIndex.add_to_index`.
  - The block is passed explicitly, not held in a global. Stored pointers
    are 32-bit C ints and wrap around.

The model follows the code as written, including these behaviours, which a
reader of the code might not expect:

- **`insert` does not pad.** A short row is appended as it is, so it
  leaves a partial slot that `count()` does not see. The returned pk is
  `(len(file) - 1) / row_width`, which is -1 for an empty row written to an
  empty file.
- **`update` runs its checks in a fixed order.** The pk check comes before
  the size check. A negative pk passes the pk check and then fails in
  `seek`. In the older store, a pk of None passes the pk check, because in
  Python 2 `None >= n` is false, and then fails with a TypeError.
- **The older store's `all()` is off by one.** It attaches `pk + 1` to each
  instance, because it advances `pos` before converting it. `Model.all` on
  top of `FileConnection` attaches the right pk.
- **`Model.delete` skips record 0.** It tests `if self.pk:`, so record 0
  cannot be deleted through the model.
- **`add_to_index` as written fails in `add_page`.** `Block.free` is
  declared as a one-byte `c_char`, which reads back as a one-character
  string. So `not self.free` is false, and `self.pages[self.free]` raises
  TypeError whenever a page is to be created. On a block without child
  links, which is every block this code can build from a zero-filled one,
  every call with a value whose first character is in the alphabet reaches
  that point. A value whose first character is outside the alphabet fails
  earlier, with ValueError from `CHARSET.index`. On a block with links, a
  later character outside the alphabet or a bad pointer can fail earlier
  too, with ValueError or IndexError. See "Findings".
- **Even with an integer cursor, `add_to_index` never links pages.**
  `Indexing.AddPage` and `Indexing.AddToIndex` read `free` as the integer
  cursor the code evidently intends. Then no child pointer is ever written,
  and every page created is stored at the same cursor slot, because the
  cursor never advances. So `find` of any needle starting with an alphabet
  character returns None on an index built from a zero-filled block.
- **pk 0 is invisible in the index.** A data pointer of 0 is the same as
  an empty bucket slot.

## Model

| member | source | states |
|---|---|---|
| Common.LJust | babu/db.py:24-25 | padding to `max_length` with NUL keeps the value as a prefix, is never shorter than the value, adds only NUL, and never truncates |
| Common.PySlice | babu/storage.py:74 | a Python slice: the exact range when in bounds, cut back to the end past it, empty when the range is empty or starts past the end |
| RecordFile.ReadAt | babu/connections.py:94-95 | a read after a seek returns the bytes at the position, short at end of file and empty past it |
| RecordFile.WriteAt | babu/connections.py:87-88 | a write after a seek puts the data at the position, leaves every other byte as it was, and fills a gap past the end with NUL |
| RecordFile.WriteAtEndAppends | babu/connections.py:76-78 | seeking to the end and writing appends |
| RecordFile.PosFromPk | babu/connections.py:51-52 | `pk * w` is the start of slot `pk`: a multiple of `w` that converts back to `pk` |
| RecordFile.IsDeletedRowMeans | babu/connections.py:57-58 | a row is a tombstone iff it has exactly `w` bytes and every byte is NUL |
| RecordFile.WholeSlots | babu/connections.py:107-111 | `count()` is the number of whole slots: the largest `n` with `n * w <= len(file)` |
| RecordFile.PkFromPos | babu/connections.py:54-55 | `pos / w` floors: the pk is the slot containing byte `pos`, also for negative `pos` |
| RecordFile.PkAfterSlot | babu/storage.py:141-144 | the position just past slot `k` converts to pk `k + 1` |
| RecordFile.PkPosRoundTrip | babu/connections.py:51-55 | converting a pk to its position and back, from any byte inside the slot, gives the pk back |
| RecordFile.SlotInFile | babu/connections.py:60-64 | a pk below `count()` names a slot lying wholly inside the file |
| RecordFile.WriteInPlace | babu/connections.py:85-88 | a write inside the file keeps its length and changes exactly the written range |
| RecordFile.AppendFullSlot | babu/connections.py:74-79 | appending one full slot to an aligned file adds one whole slot, holding the appended bytes, and its last byte lies in slot `count()` |
| RecordFile.WriteSlotFrame | babu/connections.py:81-88 | writing at most `w` bytes into a slot inside the file changes no other slot and not the length |
| RecordFile.WriteSlotReadBack | babu/connections.py:81-97 | writing `w` bytes into a slot and reading the slot gives them back |
| RecordFile.LiveSlotsMember | babu/connections.py:99-105 | the scan yields slot `j` iff the file reaches slot `j` and its chunk is not exactly `w` NUL bytes |
| RecordFile.LiveSlotsAscending | babu/connections.py:99-105 | the scan yields slot numbers in strictly ascending order |
| RecordFile.LiveCountAfterSlotWrite | babu/storage.py:147-157 | rewriting one slot changes the number of live slots only by whether that slot was live before and after |
| Schema.IntegerMaxLengthIsThree | babu/db.py:4-35 | `len(str(MAX_INT))` is 3, so every integer 0..999 fits an integer field |
| Schema.DecimalString | babu/db.py:41-42 | `str(n)` is non-empty, starts with `-` iff `n` is negative, and is otherwise all decimal digits; `Schema.DecimalStringValue` pins which digits |
| Schema.DecimalStringValue | babu/db.py:41-42 | `str(n)` spells `n`: for `n >= 0` its digits read back as `n` with no leading zero except for 0 itself; for `n < 0` it is `-` followed by the digits of `-n` |
| Schema.RowWidthCoversFields | babu/db.py:76-81 | the row width is at least every field's `max_length` |
| Schema.OffsetStep | babu/db.py:96-99 | field `i` starts where field `i - 1` ends, and the last field ends at `row_width` |
| Schema.PiecesSpec | babu/db.py:93-100 | decoding gives field `j` the row's slice from its offset, `max_length` long, clamped like a Python slice |
| Schema.ConcatPieces | babu/db.py:87-100 | a row of exactly `row_width` bytes, cut into fields and joined again, is the same row, and each piece has its field's width |
| Schema.PiecesConcat | babu/db.py:87-100 | joining pieces of exactly their fields' widths and cutting the result gives the pieces back |
| Schema.ConcatAtLeastWidth | babu/db.py:87-91 | pieces at least as wide as their fields join to at least `row_width` bytes, exactly `row_width` iff no piece is wider than its field |
| Connections.Count | babu/connections.py:107-111 | `count()` is the number of whole slots, tombstones included |
| Connections.Insert | babu/connections.py:74-79 | a row wider than the row width is an IntegrityError and leaves the file alone; otherwise the row is appended unpadded and the pk of the slot holding its last byte is returned |
| Connections.Update | babu/connections.py:81-88 | ObjectDoesNotExist when `pk >= count()`, else IntegrityError for a wide row, else an IOError for a negative pk; otherwise exactly the bytes at the pk's slot are overwritten and the length is unchanged |
| Connections.Get | babu/connections.py:90-97 | succeeds iff `0 <= pk < count()` and the slot is not a tombstone, returning the slot's bytes; a negative pk is an IOError |
| Connections.Delete | babu/connections.py:113-116 | succeeds iff `0 <= pk < count()`; the slot becomes a tombstone and no other slot or the length changes |
| Connections.FetchFrom | babu/connections.py:99-105 | every yielded row is the slot its pk names and never a tombstone |
| Connections.FetchAll | babu/connections.py:99-105 | `fetch_all` yields one pair per live slot, in slot order: the slot number and the slot's bytes |
| Connections.FetchFromIsLiveScan | babu/connections.py:99-105 | `fetch_all` yields exactly the live slots, in order |
| Connections.FetchAllSpec | babu/connections.py:99-105 | `fetch_all` never yields a tombstone, yields pks in ascending order, and yields every live slot paired with its bytes |
| Connections.InsertFullRow | babu/connections.py:74-79 | a full-width row appended to an aligned file gets pk `count()`, `count()` grows by one, and `get` returns the row |
| Connections.InsertShortRowNotCounted | babu/connections.py:74-79 | a short row appended to an aligned file gets pk `count()` but `count()` does not grow and `get` of that pk fails |
| Connections.InsertEmptyIntoEmpty | babu/connections.py:74-79 | inserting an empty row into an empty file returns -1 |
| Connections.DeleteThenGet | babu/connections.py:113-116 | after `delete(pk)`, `get(pk)` fails, `count()` is unchanged and every other record reads as before |
| Connections.UpdateRevivesDeleted | babu/connections.py:81-82 | updating a deleted record with a full, non-NUL row makes `get` return that row |
| Storage.CalcRowWidth | babu/storage.py:50-55 | the loop sums to the row width, which is at least every field's `max_length` |
| Storage.NormalizeField | babu/storage.py:57-61 | None becomes `max_length` NUL bytes; other values are NUL-padded and never truncated |
| Storage.Normalized | babu/storage.py:63-68 | each normalised field starts with its value's text (empty for None), continues with NUL bytes only, and is `max_length` long unless the text is longer |
| Storage.ToDb | babu/storage.py:63-68 | the row is at least `row_width` bytes, exactly `row_width` iff every value fits its field |
| Storage.FromDb | babu/storage.py:70-76 | field `j` gets the row's slice at its offset, clamped like a Python slice |
| Storage.ToDbFromDb | babu/storage.py:63-76 | decoding a full-width row and encoding the result gives the row back |
| Storage.FromDbToDb | babu/storage.py:63-76 | encoding values that fit and decoding gives each value back NUL-padded to its width |
| Storage.TotalCount | babu/storage.py:159-163 | `total_count()` is the number of whole slots |
| Storage.Insert | babu/storage.py:101-107 | a row wider than `row_width` is an IntegrityError; otherwise the row is appended and the instance gets the pk of the slot holding its last byte |
| Storage.Update | babu/storage.py:109-119 | ObjectDoesNotExist for a pk at or past `total_count()`; IntegrityError for a wide row; TypeError for a pk of None; an IOError from `seek` for a negative pk; otherwise exactly the pk's bytes are overwritten |
| Storage.Get | babu/storage.py:121-131 | succeeds iff `0 <= pk < total_count()` and the slot is not a tombstone; the instance is the slot decoded, without a pk |
| Storage.AllFromSpec | babu/storage.py:133-145 | `all()` yields exactly one instance per live slot, in slot order: the slot decoded, with `slot + 1` attached |
| Storage.All | babu/storage.py:133-145 | `all()` is the decoded entry of every live slot, in slot order, each with `slot + 1` attached |
| Storage.AllPkOffByOne | babu/storage.py:141-144 | the pk attached by `all()` is one more than the slot the instance was read from, and its values are that slot decoded |
| Storage.AllPksAscending | babu/storage.py:133-145 | every instance `all()` yields carries a pk, and the pks are strictly ascending |
| Storage.Count | babu/storage.py:147-157 | `count()` is the number of slots that are not tombstones, a trailing partial chunk included |
| Storage.Delete | babu/storage.py:165-171 | succeeds iff `0 <= pk < total_count()`; the slot becomes a tombstone and no other slot changes |
| Storage.DeleteEffects | babu/storage.py:165-171 | after `delete(pk)`, `get(pk)` fails, `total_count()` is unchanged, and `count()` drops by one iff the record was live |
| Storage.InsertAligned | babu/storage.py:101-107 | inserting values that fit into an aligned file gets pk `total_count()`, adds one slot, and that slot holds the encoded row |
| Storage.InsertThenGet | babu/storage.py:101-131 | `get` of the pk `insert` assigned returns each value NUL-padded to its width |
| Db.Serialize | babu/db.py:21-42 | a char field serialises to its text, and a value that is not text fails with AttributeError when padded; an integer field gives `str(n)` for an int, `"None"` for None and the text itself for a str; integers 0..999 fit |
| Db.FieldToDb | babu/db.py:24-25 | a field's bytes are its serialised text NUL-padded to `max_length`, never truncated |
| Db.EncodePrefix | babu/db.py:87-91 | encoding the first `n` fields succeeds iff each present one serialises; with every field present it gives each field's `to_db` in order |
| Db.EncodePrefixPresent | babu/db.py:66-91 | for any instance, the encoding holds exactly the `to_db` outputs of the fields present in `data`, in schema order; absent fields are skipped |
| Db.ToDb | babu/db.py:87-91 | encoding succeeds iff every present field serialises; otherwise AttributeError |
| Db.ToDbLength | babu/db.py:66-91 | the row of any instance, complete or not, is as long as its present fields' texts each padded to `max_length`; an absent field takes no room |
| Db.ToDbWidth | babu/db.py:87-91 | a full instance encodes to at least `row_width` bytes, exactly `row_width` iff each serialised value fits its field |
| Db.FromDb | babu/db.py:93-100 | field `j` becomes the text of the row's slice at its offset |
| Db.ToDbFromDb | babu/db.py:87-100 | decoding a full-width row and encoding the instance gives the row back |
| Db.FromDbToDb | babu/db.py:87-100 | encoding an instance whose values fit and decoding gives each value's text NUL-padded |
| Db.Save | babu/db.py:102-114 | an AttributeError in encoding aborts the save; without a pk the row is appended unpadded, the call succeeds iff the row fits, and the attached pk is the slot holding the row's last byte; with a pk the result is exactly the connection's `update(pk, row)`, succeeding iff `0 <= pk < count()` and the row fits, and the pk is kept |
| Db.Get | babu/db.py:128-133 | succeeds exactly when the connection's `get` does, with the same error; the instance carries `pk` and the slot's bytes decoded field by field |
| Db.SaveNewThenGet | babu/db.py:102-133 | saving a new instance whose values fit into an aligned file, then getting its pk, returns its values padded |
| Db.SaveExistingThenGet | babu/db.py:106-133 | saving an instance with an existing pk whose values fit keeps the pk, and `get` of it returns each value padded |
| Db.SaveExistingKeepsOthers | babu/db.py:106-133 | updating one record leaves what `get` returns for every other pk unchanged |
| Db.Delete | babu/db.py:139-141 | a pk of None or 0 does nothing; otherwise succeeds iff `0 < pk < count()` (a negative pk is a seek error), the slot becomes a tombstone that no longer reads, and no other slot or the length changes |
| Db.RecordZeroNeverDeleted | babu/db.py:139-141 | deleting an instance with pk 0 leaves record 0 readable |
| Db.All | babu/db.py:116-126 | one instance per live slot, in slot order, each the slot's bytes decoded with the slot number as pk |
| Db.AllAgreesWithGet | babu/db.py:116-133 | each instance `all()` returns is what `get` returns for its pk |
| Indexing.CInt | babu/indexing.py:7-14 | storing into a C int keeps the value modulo 2^32, in signed range, and leaves in-range values unchanged |
| Indexing.IndexOf | babu/indexing.py:26 | the first position holding the value, or the length when there is none |
| Indexing.CharIndex | babu/indexing.py:26 | a character's alphabet position is below 62, and the only failure is ValueError |
| Indexing.CharsetAt | babu/indexing.py:4 | the alphabet has 62 characters: `a`..`z`, then `A`..`Z`, then `0`..`9` |
| Indexing.CharIndexIsIndexOf | babu/indexing.py:26 | the position computed from the code point is `CHARSET.index`: defined exactly on the alphabet, and the first place the character occurs |
| Indexing.Root | babu/indexing.py:55-57 | the root is a well-formed page: 10 data pointers and 62 child pointers |
| Indexing.PageIndex | babu/indexing.py:29 | a pointer in `[0, 1000)` indexes that page, one in `[-1000, 0)` indexes page `ptr + 1000`, and anything else is an IndexError |
| Indexing.Goto | babu/indexing.py:25-29 | ValueError outside the alphabet; None iff the child pointer is 0; a pointer in `(0, 1000)` gives that page, one in `[-1000, 0)` gives page `ptr + 1000`, and anything else is an IndexError |
| Indexing.FirstFree | babu/indexing.py:36-40 | the loop stops at the first zero slot, or at the last slot when none is zero |
| Indexing.AddDataPtr | babu/indexing.py:36-41 | the pointer goes into the first zero slot, or overwrites slot 9 when all are taken; nothing else changes |
| Indexing.AddZeroIsInvisible | babu/indexing.py:36-41 | adding pk 0 to a bucket with a free slot leaves the page as it was |
| Indexing.NewPage | babu/indexing.py:123 | a created page holds only `pk` in its bucket and has no child pointers |
| Indexing.AddPage | babu/indexing.py:59-62 | a zero cursor becomes 1, the page is stored at the cursor, the cursor does not move, page 0 and all other pages are unchanged; past the array is an IndexError |
| Indexing.AddPageOverwrites | babu/indexing.py:59-62 | a second `add_page` overwrites the page the first one stored |
| Indexing.FindFrom | babu/indexing.py:100-108 | the walk only fails with ValueError or IndexError, and a bucket it returns has 10 pointers |
| Indexing.Find | babu/indexing.py:100-108 | the empty needle gives the root's bucket; an absent first child gives None; a first character outside the alphabet is a ValueError; the only failures are ValueError and IndexError |
| Indexing.BrokenPathFindsNone | babu/indexing.py:100-108 | a route of present child pointers that reaches a page without a child for the next character makes `find` return None |
| Indexing.FindIsNone | babu/indexing.py:100-108 | `find` returns None iff the needle's first three characters lead from the root to a page without a child for the next of them |
| Indexing.FindIgnoresTail | babu/indexing.py:102 | characters past the third do not affect `find` |
| Indexing.FindIsPath | babu/indexing.py:100-108 | `find` returns a bucket iff the needle's first three characters spell a route of present child pointers from the root, and it is the bucket where the route ends |
| Indexing.Walk | babu/indexing.py:114-120 | the walk's route starts at the given page, has at most one page per remaining character, and changes neither the cursor nor the page count |
| Indexing.AddToBucket | babu/indexing.py:116 | one step adds `pk` to the current page's bucket and leaves every link, the cursor and every other page unchanged |
| Indexing.WalkRoute | babu/indexing.py:114-120 | every step of the walk follows a present child pointer |
| Indexing.WalkStops | babu/indexing.py:114-120 | the walk ends after the last character or at the first page without a child for the next character |
| Indexing.WalkEffects | babu/indexing.py:114-120 | the walk changes buckets only: pages off the route are untouched, and every page on it holds `pk` and keeps every pointer it had in slots 0 to 8 |
| Indexing.CreatePages | babu/indexing.py:121-124 | creating pages moves the cursor to at least 1 and stores only the page for the last character, leaving every other page as it was |
| Indexing.AddToIndex | babu/indexing.py:110-124 | an empty value is a NameError; otherwise the root's bucket holds `pk`, the cursor page holds a fresh page for the last indexed character, and no other page's child pointers change |
| Indexing.AddToIndexRoute | babu/indexing.py:110-124 | the pages that get `pk` are a route from the root along present child pointers, and each keeps every pointer it had in slots 0 to 8; every other page except the cursor page is untouched |
| Indexing.AddToIndexNeverLinks | babu/indexing.py:100-124 | from a block without links, the index stays without links: `find` of any needle starting in the alphabet returns None, and `find("")` returns the root's bucket, which holds `pk` |
| Indexing.AddToIndexAsWritten | babu/indexing.py:51-62 | with `free` read as the `c_char` it is declared as, `add_to_index` never succeeds, and once the walk succeeds it fails with TypeError |
| Indexing.AddPageAsWrittenFails | babu/indexing.py:51-62 | for any block whose integer cursor is inside the page array, `add_page` as written raises TypeError where the integer-cursor model stores the page |
| Indexing.AddToIndexAsWrittenFails | babu/indexing.py:51-62 | on an unlinked block, a value starting in the alphabet is indexed by the integer-cursor model but is a TypeError as written |

## Left out

- Opening and creating the `.db` file, and the connection cache in
  `Model.get_or_create_connection`. These are I/O and process state. The
  file is a byte sequence that the operations take and return.
- `chunker` (babu/utils.py) is not part of this model. `fetch_all` is
  modelled on the assumption that it yields `(pos, rows[pos:pos + w])` for
  `pos = 0, w, 2w, …`, with the last chunk possibly short.
- `Storage.Insert`, `Storage.Update`: `to_db()` is taken as input, as each
  field's output (or None). A field missing from `instance.data` (a
  KeyError) is excluded by requiring one value per schema field.
- Fields are iterated in schema order. The source iterates a dict, whose
  order Python 2 does not fix.
- `Field.field_factory`, `IntegerField.from_db`, `__repr__` and
  `classproperty` are not modelled: they are plumbing, or not used by the
  code paths above.
- `Model.iterator`, `Model.count` and `Model.create`/`update` are modelled
  inside `Db.All`, `Connections.Count` and `Db.Save`.
- A row width of 0 would make every pk/position conversion divide by
  zero. Every operation requires a positive row width.
- `FieldIndex.create_index`, `init_index` and its ProgrammingError, the
  memory mapping, and the global `BLOCK` are left out. They are I/O; the
  block is a parameter instead.
- `Page.next` and `remove_from_index` are left out: nothing calls
  `next`, and `remove_from_index` only raises NotImplementedError.
- The ctypes layout and byte sizes of pages are left out.
- `Indexing.AddPage`, `Indexing.AddToIndex`: `Block.free` is declared as a
  one-byte `c_char`, so in the source `add_page` raises TypeError (see
  "Findings"). These members read `free` as the integer cursor that
  `add_page` evidently intends.
- `Indexing.AddToIndex`: a failure part-way through discards the partial
  writes. In the source, bucket writes already made to the mapped block
  stay.
- `Indexing.AddToIndex`: the indexed value is modelled as a sequence of
  characters, not of bytes, and a page's `curr` as one character. The
  source indexes a Python 2 byte string and stores a one-byte `c_char`.
  Lookup and the walk agree either way, since every byte of a non-ASCII
  character lies outside the alphabet. For a non-ASCII value, though,
  `value[:3]` counts bytes in the source and may cut a character apart,
  so the `curr` of the page left at the cursor can differ from the
  model's.
- `Indexing.AddToIndex`: the indexed value is a string and pk an integer.
  A value of another type (for example an integer field) fails before
  the walk, and a pk of None fails when it is stored.
- Concurrency and crash consistency: the source has no locking, so
  neither does the model.

## Findings

| source | as written | input that shows it | evidently intended | confidence | as-written member | corrected member |
|---|---|---|---|---|---|---|
| babu/indexing.py:51-62 | `free` is a `c_char`, which reads back as a one-character string: `not self.free` is false and `self.pages[self.free]` raises TypeError | any block without child links (every block this code can build from a zero-filled one) and any value whose first character is in the alphabet, e.g. `add_to_index` of `"a"` on a zero-filled block | `free` is an integer cursor: 0 becomes 1 and the page is stored at that index | high, not executed | Indexing.AddToIndexAsWrittenFails | Indexing.AddPage |

=== FILE: common.dfy ===
/** Shared vocabulary of the record store: bytes, the NUL fill byte, the
    exceptions the store raises, and the Option/Result wrappers used to
    model them. */
module Common {

  /** One byte of a Python 2 byte string. */
  newtype byte = x: int | 0 <= x < 256

  /** The fill byte (`FILL_CHAR = '\000'`): pads fields and marks a deleted slot. */
  const Nul: byte := 0

  /** The exceptions raised by the modelled code. */
  datatype Error =
    | ObjectDoesNotExist   // pk out of range, or the slot is a tombstone
    | IntegrityError       // an encoded row is wider than the row width
    | InvalidSeek          // IOError: `seek` to a negative offset
    | TypeError            // arithmetic on a pk that is None; a str used as an index
    | AttributeError       // `ljust` called on a value that is not a string
    | ValueError           // `CHARSET.index` of a character outside the alphabet
    | IndexError           // a page pointer outside the page array
    | NameError            // the loop variable of a loop that never ran

  datatype Option<+T> = None | Some(value: T)

  /** A value or the exception that replaced it; usable with `:-`. */
  datatype Result<+T> = Ok(value: T) | Err(error: Error) {
    predicate IsFailure() {
      Err?
    }

    function PropagateFailure<U>(): Result<U>
      requires Err?
    {
      Err(error)
    }

    function Extract(): T
      requires Ok?
    {
      value
    }
  }

  function Max(a: int, b: int): int {
    if a >= b then a else b
  }

  /** `FILL_CHAR * n`. */
  function Nuls(n: nat): (r: seq<byte>)
    ensures |r| == n
    ensures forall i :: 0 <= i < n ==> r[i] == Nul
  {
    seq(n, _ => Nul)
  }

  predicate AllNul(s: seq<byte>) {
    forall i :: 0 <= i < |s| ==> s[i] == Nul
  }

  /** `s.ljust(width, FILL_CHAR)`: right-pads with NUL up to `width` and
      never truncates; a width at or below `|s|` leaves `s` as it is. */
  function LJust(s: seq<byte>, width: int): (r: seq<byte>)
    ensures |r| == Max(|s|, width)
    ensures r[..|s|] == s
    ensures AllNul(r[|s|..])
  {
    if width <= |s| then s else s + Nuls(width - |s|)
  }

  /** `s[lo:hi]` with Python's clamping: bounds past the end are cut back
      to it and an empty range gives the empty string. */
  function PySlice(s: seq<byte>, lo: nat, hi: nat): (r: seq<byte>)
    ensures |r| <= |s|
    ensures lo <= hi <= |s| ==> r == s[lo..hi]
    ensures hi > |s| && lo <= |s| ==> r == s[lo..]
    ensures lo >= |s| || hi <= lo ==> r == []
  {
    if lo >= |s| || hi <= lo then [] else if hi <= |s| then s[lo..hi] else s[lo..]
  }
}

=== FILE: connections.dfy ===
/** `FileConnection`: a record file cut into `rowWidth`-wide slots, record
    number `pk` living at byte offset `pk * rowWidth`, a slot of all NUL
    bytes being a deleted record. Every operation is a pure function from
    the connection (its width and the file's bytes) to a `Result`. */
module Connections {
  import opened Common
  import opened RecordFile

  datatype FileConnection = FileConnection(rowWidth: nat, file: seq<byte>) {
    /** A zero width would make every pk/position conversion divide by zero. */
    predicate Valid() {
      rowWidth > 0
    }
  }

  /** `count()`: `len(file) / row_width`, every whole slot, deleted or not. */
  function Count(c: FileConnection): (n: nat)
    requires c.Valid()
    ensures n * c.rowWidth <= |c.file| < n * c.rowWidth + c.rowWidth
  {
    WholeSlots(c.file, c.rowWidth)
  }

  /** `insert`: rejects a row wider than the row width before writing;
      otherwise appends it as it is (no padding) and returns the slot that
      holds the last byte written. */
  function Insert(c: FileConnection, row: seq<byte>): (r: Result<(FileConnection, int)>)
    requires c.Valid()
    ensures r.Err? <==> |row| > c.rowWidth
    ensures r.Err? ==> r.error == IntegrityError
    ensures r.Ok? ==> r.value.0 == c.(file := c.file + row)
    ensures r.Ok? ==> r.value.1 * c.rowWidth <= |c.file| + |row| - 1 < r.value.1 * c.rowWidth + c.rowWidth
  {
    if |row| > c.rowWidth then Err(IntegrityError)
    else
      var f := WriteAt(c.file, |c.file|, row);
      WriteAtEndAppends(c.file, row);
      Ok((c.(file := f), PkFromPos(c.rowWidth, |f| - 1)))
  }

  /** `update`: the pk check runs before the size check, and a negative pk
      passes both and then fails in `seek`. On success only bytes
      `[pk * w, pk * w + len(row))` change; a deleted slot may be updated. */
  function Update(c: FileConnection, pk: int, row: seq<byte>): (r: Result<FileConnection>)
    requires c.Valid()
    ensures pk >= Count(c) ==> r == Err(ObjectDoesNotExist)
    ensures pk < Count(c) && |row| > c.rowWidth ==> r == Err(IntegrityError)
    ensures pk < 0 && |row| <= c.rowWidth ==> r == Err(InvalidSeek)
    ensures r.Ok? <==> 0 <= pk < Count(c) && |row| <= c.rowWidth
    ensures r.Ok? ==> r.value.rowWidth == c.rowWidth && |r.value.file| == |c.file|
    ensures r.Ok? ==> forall i :: 0 <= i < |c.file| ==>
              r.value.file[i] == if pk * c.rowWidth <= i < pk * c.rowWidth + |row|
                                 then row[i - pk * c.rowWidth] else c.file[i]
  {
    if pk >= Count(c) then Err(ObjectDoesNotExist)
    else if |row| > c.rowWidth then Err(IntegrityError)
    else if pk < 0 then Err(InvalidSeek)
    else
      SlotInFile(c.file, c.rowWidth, pk);
      WriteInPlace(c.file, PosFromPk(c.rowWidth, pk), row);
      Ok(c.(file := WriteAt(c.file, PosFromPk(c.rowWidth, pk), row)))
  }

  /** `get`: the pk check, then `seek`, then the tombstone check. A
      successful read is the whole slot `pk`, which is not all NUL. */
  function Get(c: FileConnection, pk: int): (r: Result<seq<byte>>)
    requires c.Valid()
    ensures pk >= Count(c) ==> r == Err(ObjectDoesNotExist)
    ensures pk < 0 ==> r == Err(InvalidSeek)
    ensures r.Ok? <==> 0 <= pk < Count(c) && !IsDeletedRow(c.rowWidth, Slot(c.file, c.rowWidth, pk))
    ensures r.Err? && 0 <= pk ==> r == Err(ObjectDoesNotExist)
    ensures r.Ok? ==>
              && pk * c.rowWidth + c.rowWidth <= |c.file|
              && r.value == c.file[pk * c.rowWidth .. pk * c.rowWidth + c.rowWidth]
  {
    if pk >= Count(c) then Err(ObjectDoesNotExist)
    else if pk < 0 then Err(InvalidSeek)
    else
      SlotInFile(c.file, c.rowWidth, pk);
      var row := ReadAt(c.file, PosFromPk(c.rowWidth, pk), c.rowWidth);
      if IsDeletedRow(c.rowWidth, row) then Err(ObjectDoesNotExist) else Ok(row)
  }

  /** `delete`: after the pk check, an `update` with `w` NUL bytes. On
      success slot `pk` is a tombstone, every other slot and the length of
      the file are unchanged. */
  function Delete(c: FileConnection, pk: int): (r: Result<FileConnection>)
    requires c.Valid()
    ensures pk >= Count(c) ==> r == Err(ObjectDoesNotExist)
    ensures pk < 0 ==> r == Err(InvalidSeek)
    ensures r.Ok? <==> 0 <= pk < Count(c)
    ensures r.Ok? ==> r.value.rowWidth == c.rowWidth && |r.value.file| == |c.file|
    ensures r.Ok? ==> IsDeletedRow(c.rowWidth, Slot(r.value.file, c.rowWidth, pk))
    ensures r.Ok? ==> forall j: nat :: j != pk ==>
              Slot(r.value.file, c.rowWidth, j) == Slot(c.file, c.rowWidth, j)
  {
    if pk >= Count(c) then Err(ObjectDoesNotExist)
    else
      var r := Update(c, pk, Nuls(c.rowWidth));
      if pk >= 0 then
        SlotInFile(c.file, c.rowWidth, pk);
        WriteSlotFrame(c.file, c.rowWidth, pk, Nuls(c.rowWidth));
        WriteSlotReadBack(c.file, c.rowWidth, pk, Nuls(c.rowWidth));
        r
      else r
  }

  /** `fetch_all` from slot `k` on. `chunker` is not part of this model: it
      is taken to yield `(pos, rows[pos:pos + w])` for `pos = 0, w, 2w, ...`,
      so the chunk at `pos = k * w` is slot `k`. Tombstones are skipped and
      each row is paired with `pos / w`. */
  function FetchFrom(c: FileConnection, k: nat): (rows: seq<(int, seq<byte>)>)
    requires c.Valid()
    ensures forall i :: 0 <= i < |rows| ==> !IsDeletedRow(c.rowWidth, rows[i].1)
    ensures forall i :: 0 <= i < |rows| ==>
              k <= rows[i].0 && rows[i].1 == Slot(c.file, c.rowWidth, rows[i].0)
    decreases |c.file| - k * c.rowWidth
  {
    if k * c.rowWidth >= |c.file| then []
    else
      assert (k + 1) * c.rowWidth == k * c.rowWidth + c.rowWidth;
      var row := Slot(c.file, c.rowWidth, k);
      MulDiv(k, c.rowWidth);
      (if IsDeletedRow(c.rowWidth, row) then [] else [(PkFromPos(c.rowWidth, k * c.rowWidth), row)])
        + FetchFrom(c, k + 1)
  }

  /** `fetch_all`: every non-tombstone chunk, paired with its record number;
      the record numbers are the live-slot scan's, in order. */
  function FetchAll(c: FileConnection): (rows: seq<(int, seq<byte>)>)
    requires c.Valid()
    ensures |rows| == |LiveSlotsFrom(c.file, c.rowWidth, 0)|
    ensures forall i :: 0 <= i < |rows| ==>
              rows[i] == (LiveSlotsFrom(c.file, c.rowWidth, 0)[i], Slot(c.file, c.rowWidth, LiveSlotsFrom(c.file, c.rowWidth, 0)[i]))
  {
    FetchFromIsLiveScan(c, 0);
    FetchFrom(c, 0)
  }

  /** `fetch_all` is exactly the live-slot scan: the yielded record numbers
      are the non-tombstone slots in ascending order, each with its slot. */
  lemma {:induction false} FetchFromIsLiveScan(c: FileConnection, k: nat)
    requires c.Valid()
    ensures |FetchFrom(c, k)| == |LiveSlotsFrom(c.file, c.rowWidth, k)|
    ensures forall i :: 0 <= i < |FetchFrom(c, k)| ==>
              FetchFrom(c, k)[i].0 == LiveSlotsFrom(c.file, c.rowWidth, k)[i]
    decreases |c.file| - k * c.rowWidth
  {
    if k * c.rowWidth < |c.file| {
      assert (k + 1) * c.rowWidth == k * c.rowWidth + c.rowWidth;
      MulDiv(k, c.rowWidth);
      FetchFromIsLiveScan(c, k + 1);
    }
  }

  /** `fetch_all` never yields a tombstone, yields each live slot `k`
      (including a short trailing chunk) as `(k, slot k)`, and yields them
      in strictly ascending record-number order. */
  lemma FetchAllSpec(c: FileConnection)
    requires c.Valid()
    ensures forall i :: 0 <= i < |FetchAll(c)| ==> !IsDeletedRow(c.rowWidth, FetchAll(c)[i].1)
    ensures forall i, j :: 0 <= i < j < |FetchAll(c)| ==> FetchAll(c)[i].0 < FetchAll(c)[j].0
    ensures forall k: nat :: k * c.rowWidth < |c.file| && !IsDeletedRow(c.rowWidth, Slot(c.file, c.rowWidth, k)) ==>
              exists i :: 0 <= i < |FetchAll(c)| && FetchAll(c)[i] == (k, Slot(c.file, c.rowWidth, k))
  {
    var rows, live := FetchAll(c), LiveSlotsFrom(c.file, c.rowWidth, 0);
    FetchFromIsLiveScan(c, 0);
    LiveSlotsAscending(c.file, c.rowWidth, 0);
    forall k: nat | k * c.rowWidth < |c.file| && !IsDeletedRow(c.rowWidth, Slot(c.file, c.rowWidth, k))
      ensures exists i :: 0 <= i < |rows| && rows[i] == (k, Slot(c.file, c.rowWidth, k))
    {
      LiveSlotsMember(c.file, c.rowWidth, 0, k);
      var i :| 0 <= i < |live| && live[i] == k;
      assert rows[i].0 == k;
    }
  }

  /** Inserting a full-width row into an aligned file returns the previous
      `count()` and grows `count()` by one; the new record reads back when
      it is not all NUL. */
  lemma InsertFullRow(c: FileConnection, row: seq<byte>)
    requires c.Valid() && |c.file| % c.rowWidth == 0 && |row| == c.rowWidth
    ensures Insert(c, row).Ok?
    ensures Insert(c, row).value.1 == Count(c)
    ensures Count(Insert(c, row).value.0) == Count(c) + 1
    ensures !IsDeletedRow(c.rowWidth, row) ==>
              Get(Insert(c, row).value.0, Count(c)) == Ok(row)
  {
    var n := Count(c);
    AppendFullSlot(c.file, c.rowWidth, row);
    SlotInFile(c.file + row, c.rowWidth, n);
  }

  /** `insert` does not pad: a short non-empty row appended to an aligned
      file returns the next record number, but `count()` does not grow, so
      `get` of that number fails. */
  lemma InsertShortRowNotCounted(c: FileConnection, row: seq<byte>)
    requires c.Valid() && |c.file| % c.rowWidth == 0 && 0 < |row| < c.rowWidth
    ensures Insert(c, row).Ok?
    ensures Insert(c, row).value.1 == Count(c)
    ensures Count(Insert(c, row).value.0) == Count(c)
    ensures Get(Insert(c, row).value.0, Count(c)) == Err(ObjectDoesNotExist)
  {
    var n, w := Count(c), c.rowWidth;
    assert |c.file| == n * w;
    PkPosRoundTrip(c.rowWidth, n, |row| - 1);
    PkPosRoundTrip(c.rowWidth, n, |row|);
    assert Count(Insert(c, row).value.0) == PkFromPos(c.rowWidth, n * w + |row|);
  }

  /** Inserting an empty row into an empty file returns -1. */
  lemma InsertEmptyIntoEmpty(c: FileConnection)
    requires c.Valid() && c.file == []
    ensures Insert(c, []) == Ok((c, -1))
  {
  }

  /** After `delete(pk)` the record is gone for `get`, `count()` is
      unchanged, and any other record reads as before. */
  lemma DeleteThenGet(c: FileConnection, pk: int, other: int)
    requires c.Valid() && Delete(c, pk).Ok? && other != pk
    ensures Get(Delete(c, pk).value, pk) == Err(ObjectDoesNotExist)
    ensures Count(Delete(c, pk).value) == Count(c)
    ensures Get(Delete(c, pk).value, other) == Get(c, other)
  {
    var c' := Delete(c, pk).value;
    assert Count(c') == Count(c);
    if 0 <= other < Count(c) {
      SlotInFile(c.file, c.rowWidth, other);
      SlotInFile(c'.file, c.rowWidth, other);
      assert Slot(c'.file, c.rowWidth, other) == Slot(c.file, c.rowWidth, other);
    }
  }

  /** `update` revives a deleted record: after `delete(pk)`, updating `pk`
      with a full-width row that is not all NUL makes `get(pk)` return it. */
  lemma UpdateRevivesDeleted(c: FileConnection, pk: int, row: seq<byte>)
    requires c.Valid() && Delete(c, pk).Ok?
    requires |row| == c.rowWidth && !IsDeletedRow(c.rowWidth, row)
    ensures Update(Delete(c, pk).value, pk, row).Ok?
    ensures Get(Update(Delete(c, pk).value, pk, row).value, pk) == Ok(row)
  {
    var c' := Delete(c, pk).value;
    var c'' := Update(c', pk, row).value;
    SlotInFile(c''.file, c.rowWidth, pk);
    assert c''.file[pk * c.rowWidth .. pk * c.rowWidth + c.rowWidth] == row;
  }
}

=== FILE: db.dfy ===
/** The object layer: typed fields serialised to text and NUL-padded to
    their `max_length`, model rows built from the fields in schema order,
    and `save`/`delete` routed to a `FileConnection` whose row width is
    the model's. */
module Db {
  import opened Common
  import opened RecordFile
  import opened Schema
  import Connections

  /** What a field holds: text (a Python 2 str), an integer, or None. */
  datatype Value = Text(s: seq<byte>) | Int(n: int) | Null

  /** A model instance: its pk (None until created) and, per schema field
      in order, the value it holds, or None when the field was not given
      to the constructor and so is absent from `data`. */
  datatype Instance = Instance(pk: Option<int>, data: seq<Option<Value>>)

  /** `str(None)`. */
  const NoneText: seq<byte> := [78, 111, 110, 101]

  /** `serialize`: a char field returns its value as it is; an integer
      field returns `str(value)`, which is the decimal text of an int, the
      text itself for a str, and "None" for None. `to_db` then calls
      `ljust`, which only a str has, so a char field holding an int or None
      fails with AttributeError. */
  function Serialize(kind: FieldKind, v: Value): (r: Result<seq<byte>>)
    ensures r.Ok? <==> kind == IntegerField || v.Text?
    ensures r.Err? ==> r.error == AttributeError
    ensures v.Text? ==> r == Ok(v.s)
    ensures kind == IntegerField && v.Int? ==> r == Ok(DecimalString(v.n))
    ensures kind == IntegerField && v.Null? ==> r == Ok(NoneText)
    ensures kind == IntegerField && v.Int? && 0 <= v.n < 1000 ==> |r.value| <= IntegerMaxLength
  {
    IntegerMaxLengthIsThree();
    match v
    case Text(s) => Ok(s)
    case Int(n) => if kind == IntegerField then Ok(DecimalString(n)) else Err(AttributeError)
    case Null => if kind == IntegerField then Ok(NoneText) else Err(AttributeError)
  }

  /** `Field.to_db`: the serialised value NUL-padded to `max_length`; a
      longer value is kept whole, never truncated. */
  function FieldToDb(f: FieldDesc, v: Value): (r: Result<seq<byte>>)
    ensures r.Ok? <==> Serialize(f.kind, v).Ok?
    ensures r.Err? ==> r.error == AttributeError
    ensures r.Ok? ==> var text := Serialize(f.kind, v).value;
              && |r.value| == Max(|text|, f.maxLength)
              && r.value[..|text|] == text
              && AllNul(r.value[|text|..])
  {
    var text :- Serialize(f.kind, v);
    Ok(LJust(text, f.maxLength))
  }

  predicate AllPresent(data: seq<Option<Value>>) {
    forall j :: 0 <= j < |data| ==> data[j].Some?
  }

  /** The positions, below `n`, of the fields present in `data`: the
      fields `Model.to_db` visits, in schema order. */
  function PresentIndices(data: seq<Option<Value>>, n: nat): (idx: seq<nat>)
    requires n <= |data|
    ensures forall i :: 0 <= i < |idx| ==> idx[i] < n && data[idx[i]].Some?
    ensures forall j :: 0 <= j < n && data[j].Some? ==> j in idx
    ensures forall i, k :: 0 <= i < k < |idx| ==> idx[i] < idx[k]
  {
    if n == 0 then []
    else PresentIndices(data, n - 1) + (if data[n - 1].Some? then [n - 1] else [])
  }

  /** The `to_db` outputs of the fields present among the first `n`, in
      order; the first field whose `to_db` fails decides the error. An
      absent field contributes nothing. */
  function EncodePrefix(fields: seq<FieldDesc>, data: seq<Option<Value>>, n: nat): (r: Result<seq<seq<byte>>>)
    requires |data| == |fields| && n <= |fields|
    ensures r.Ok? <==> forall j :: 0 <= j < n && data[j].Some? ==> Serialize(fields[j].kind, data[j].value).Ok?
    ensures r.Err? ==> r.error == AttributeError
    ensures r.Ok? && AllPresent(data) ==>
              && |r.value| == n
              && forall j :: 0 <= j < n ==> r.value[j] == FieldToDb(fields[j], data[j].value).value
  {
    if n == 0 then Ok([])
    else
      var prev :- EncodePrefix(fields, data, n - 1);
      if data[n - 1].None? then Ok(prev)
      else
        var e :- FieldToDb(fields[n - 1], data[n - 1].value);
        Ok(prev + [e])
  }

  /** Whatever fields are present, the encoding holds exactly their
      `to_db` outputs, in schema order: absent fields are skipped. */
  lemma {:induction false} EncodePrefixPresent(fields: seq<FieldDesc>, data: seq<Option<Value>>, n: nat)
    requires |data| == |fields| && n <= |fields| && EncodePrefix(fields, data, n).Ok?
    ensures var idx, encs := PresentIndices(data, n), EncodePrefix(fields, data, n).value;
            && |encs| == |idx|
            && forall i :: 0 <= i < |idx| ==> FieldToDb(fields[idx[i]], data[idx[i]].value) == Ok(encs[i])
    decreases n
  {
    if n > 0 {
      EncodePrefixPresent(fields, data, n - 1);
      if data[n - 1].Some? {
        var prev := EncodePrefix(fields, data, n - 1).value;
        var e := FieldToDb(fields[n - 1], data[n - 1].value).value;
        assert EncodePrefix(fields, data, n).value == prev + [e];
        assert PresentIndices(data, n) == PresentIndices(data, n - 1) + [n - 1];
      }
    }
  }

  /** The width of the row `Model.to_db` builds from the fields present
      among the first `n`: each present field's text padded to
      `max_length`, never truncated; an absent field takes no room. */
  function PresentWidth(fields: seq<FieldDesc>, data: seq<Option<Value>>, n: nat): (w: nat)
    requires |data| == |fields| && n <= |fields|
  {
    if n == 0 then 0
    else PresentWidth(fields, data, n - 1)
         + (if data[n - 1].Some? && Serialize(fields[n - 1].kind, data[n - 1].value).Ok?
            then Max(|Serialize(fields[n - 1].kind, data[n - 1].value).value|, fields[n - 1].maxLength)
            else 0)
  }

  /** `Model.to_db`: the present fields' `to_db` outputs concatenated; it
      fails exactly when some present field cannot be serialised. */
  function ToDb(fields: seq<FieldDesc>, data: seq<Option<Value>>): (r: Result<seq<byte>>)
    requires |data| == |fields|
    ensures r.Ok? <==> forall j :: 0 <= j < |fields| && data[j].Some? ==> Serialize(fields[j].kind, data[j].value).Ok?
    ensures r.Err? ==> r.error == AttributeError
  {
    var encs :- EncodePrefix(fields, data, |fields|);
    Ok(Concat(encs))
  }

  /** The joined encoding of the first `n` fields is as long as the
      present ones' padded texts together. */
  lemma {:induction false} EncodedLength(fields: seq<FieldDesc>, data: seq<Option<Value>>, n: nat)
    requires |data| == |fields| && n <= |fields| && EncodePrefix(fields, data, n).Ok?
    ensures |Concat(EncodePrefix(fields, data, n).value)| == PresentWidth(fields, data, n)
    decreases n
  {
    if n > 0 {
      var prev := EncodePrefix(fields, data, n - 1).value;
      EncodedLength(fields, data, n - 1);
      if data[n - 1].Some? {
        var e := FieldToDb(fields[n - 1], data[n - 1].value).value;
        assert EncodePrefix(fields, data, n).value == prev + [e];
        assert (prev + [e])[..|prev|] == prev;
      }
    }
  }

  /** `Model.to_db` of any instance, complete or not, is as long as the
      present fields' padded texts together: an absent field is skipped,
      not padded. */
  lemma ToDbLength(fields: seq<FieldDesc>, data: seq<Option<Value>>)
    requires |data| == |fields| && ToDb(fields, data).Ok?
    ensures |ToDb(fields, data).value| == PresentWidth(fields, data, |fields|)
  {
    EncodedLength(fields, data, |fields|);
  }

  /** With every field present, `Model.to_db` is at least `row_width`
      long, and exactly `row_width` iff every serialised value fits its
      field. */
  lemma ToDbWidth(fields: seq<FieldDesc>, data: seq<Option<Value>>)
    requires |data| == |fields| && AllPresent(data) && ToDb(fields, data).Ok?
    ensures |ToDb(fields, data).value| >= RowWidth(fields)
    ensures |ToDb(fields, data).value| == RowWidth(fields) <==>
              forall j :: 0 <= j < |fields| ==> |Serialize(fields[j].kind, data[j].value).value| <= fields[j].maxLength
  {
    var encs := EncodePrefix(fields, data, |fields|).value;
    ConcatAtLeastWidth(fields, encs);
  }

  /** `Model.from_db`: field `j` gets the text slice of the row starting at
      the sum of the earlier fields' widths and `max_length_j` long. */
  function FromDb(fields: seq<FieldDesc>, row: seq<byte>): (data: seq<Option<Value>>)
    ensures |data| == |fields| && AllPresent(data)
    ensures forall j :: 0 <= j < |fields| ==>
              data[j] == Some(Text(PySlice(row, Offset(fields, j), Offset(fields, j) + fields[j].maxLength)))
  {
    var ps := Pieces(fields, row);
    PiecesSpec(fields, row);
    seq(|fields|, j requires 0 <= j < |fields| => Some(Text(ps[j])))
  }

  /** Decoding a row of exactly `row_width` bytes and encoding the result
      gives the row back: every slice already has its field's width, and
      serialising text, for either kind of field, returns it unchanged. */
  lemma ToDbFromDb(fields: seq<FieldDesc>, row: seq<byte>)
    requires |row| == RowWidth(fields)
    ensures ToDb(fields, FromDb(fields, row)) == Ok(row)
  {
    var data := FromDb(fields, row);
    var ps := Pieces(fields, row);
    ConcatPieces(fields, row);
    var encs := EncodePrefix(fields, data, |fields|).value;
    assert encs == ps;
  }

  /** Encoding a full instance whose serialised values fit, then decoding
      the row, gives back each serialised value NUL-padded, as text. */
  lemma FromDbToDb(fields: seq<FieldDesc>, data: seq<Option<Value>>)
    requires |data| == |fields| && AllPresent(data) && ToDb(fields, data).Ok?
    requires forall j :: 0 <= j < |fields| ==> |Serialize(fields[j].kind, data[j].value).value| <= fields[j].maxLength
    ensures forall j :: 0 <= j < |fields| ==>
              FromDb(fields, ToDb(fields, data).value)[j]
              == Some(Text(LJust(Serialize(fields[j].kind, data[j].value).value, fields[j].maxLength)))
  {
    var encs := EncodePrefix(fields, data, |fields|).value;
    PiecesConcat(fields, encs);
    PiecesSpec(fields, Concat(encs));
  }

  /** The connection a model uses has the model's row width. */
  predicate Attached(conn: Connections.FileConnection, fields: seq<FieldDesc>) {
    conn.Valid() && conn.rowWidth == RowWidth(fields)
  }

  /** `save`: an instance without a pk is created (its row appended, its pk
      set to what `insert` returns); one with a pk is updated in place at
      that pk, keeping the pk. */
  function Save(conn: Connections.FileConnection, fields: seq<FieldDesc>, inst: Instance)
    : (r: Result<(Connections.FileConnection, Instance)>)
    requires Attached(conn, fields) && |inst.data| == |fields|
    ensures ToDb(fields, inst.data).Err? ==> r == Err(AttributeError)
    ensures r.Ok? ==> r.value.1.data == inst.data && r.value.1.pk.Some? && r.value.0.rowWidth == conn.rowWidth
    ensures r.Ok? && inst.pk.None? ==>
              var row := ToDb(fields, inst.data).value;
              && r.value.0.file == conn.file + row
              && r.value.1.pk.value * conn.rowWidth <= |conn.file| + |row| - 1 < r.value.1.pk.value * conn.rowWidth + conn.rowWidth
    ensures r.Ok? && inst.pk.Some? ==> r.value.1.pk == inst.pk && |r.value.0.file| == |conn.file|
    ensures r.Ok? && inst.pk.Some? ==> Ok(r.value.0) == Connections.Update(conn, inst.pk.value, ToDb(fields, inst.data).value)
    ensures inst.pk.Some? && ToDb(fields, inst.data).Ok? ==>
              (r.Ok? <==> 0 <= inst.pk.value < Connections.Count(conn)
                          && |ToDb(fields, inst.data).value| <= conn.rowWidth)
    ensures inst.pk.None? && ToDb(fields, inst.data).Ok? ==>
              (r.Ok? <==> |ToDb(fields, inst.data).value| <= conn.rowWidth)
  {
    var row :- ToDb(fields, inst.data);
    if inst.pk.Some? then
      var conn' :- Connections.Update(conn, inst.pk.value, row);
      Ok((conn', inst))
    else
      var created :- Connections.Insert(conn, row);
      Ok((created.0, inst.(pk := Some(created.1))))
  }

  /** `Model.get`: the connection's row for `pk`, decoded, with `pk` attached. */
  function Get(conn: Connections.FileConnection, fields: seq<FieldDesc>, pk: int): (r: Result<Instance>)
    requires Attached(conn, fields)
    ensures r.Ok? <==> Connections.Get(conn, pk).Ok?
    ensures r.Err? ==> r.error == Connections.Get(conn, pk).error
    ensures r.Ok? ==> r.value.pk == Some(pk) && r.value.data == FromDb(fields, Slot(conn.file, conn.rowWidth, pk))
  {
    var row :- Connections.Get(conn, pk);
    Ok(Instance(Some(pk), FromDb(fields, row)))
  }

  /** `get(save(x))` for a new instance: on an aligned file, saving a full
      instance whose serialised values fit gives it the previous `count()`
      as pk, and reading that pk back returns each value serialised and
      NUL-padded, unless the whole row is NUL. */
  lemma SaveNewThenGet(conn: Connections.FileConnection, fields: seq<FieldDesc>, inst: Instance)
    requires Attached(conn, fields) && |conn.file| % conn.rowWidth == 0
    requires inst.pk.None? && |inst.data| == |fields| && AllPresent(inst.data) && ToDb(fields, inst.data).Ok?
    requires forall j :: 0 <= j < |fields| ==>
               |Serialize(fields[j].kind, inst.data[j].value).value| <= fields[j].maxLength
    requires !IsDeletedRow(conn.rowWidth, ToDb(fields, inst.data).value)
    ensures Save(conn, fields, inst).Ok?
    ensures Save(conn, fields, inst).value.1.pk == Some(Connections.Count(conn))
    ensures Get(Save(conn, fields, inst).value.0, fields, Connections.Count(conn)).Ok?
    ensures forall j :: 0 <= j < |fields| ==>
              Get(Save(conn, fields, inst).value.0, fields, Connections.Count(conn)).value.data[j]
              == Some(Text(LJust(Serialize(fields[j].kind, inst.data[j].value).value, fields[j].maxLength)))
  {
    var row := ToDb(fields, inst.data).value;
    ToDbWidth(fields, inst.data);
    Connections.InsertFullRow(conn, row);
    FromDbToDb(fields, inst.data);
  }

  /** Saving over an existing record writes the encoded row at the
      record's position and keeps the instance as it is. */
  lemma SaveExistingWrites(conn: Connections.FileConnection, fields: seq<FieldDesc>, inst: Instance)
    requires Attached(conn, fields) && inst.pk.Some? && 0 <= inst.pk.value < Connections.Count(conn)
    requires |inst.data| == |fields| && ToDb(fields, inst.data).Ok?
    requires |ToDb(fields, inst.data).value| <= conn.rowWidth
    ensures Save(conn, fields, inst).Ok? && Save(conn, fields, inst).value.1 == inst
    ensures Save(conn, fields, inst).value.0
            == conn.(file := WriteAt(conn.file, inst.pk.value * conn.rowWidth, ToDb(fields, inst.data).value))
  {
  }

  /** `get(save(x))` for an existing instance: saving a full instance whose
      serialised values fit over a record that exists keeps its pk, and
      `get` of that pk returns each value serialised and NUL-padded, unless
      the whole row is NUL. */
  lemma SaveExistingThenGet(conn: Connections.FileConnection, fields: seq<FieldDesc>, inst: Instance)
    requires Attached(conn, fields) && inst.pk.Some? && 0 <= inst.pk.value < Connections.Count(conn)
    requires |inst.data| == |fields| && AllPresent(inst.data) && ToDb(fields, inst.data).Ok?
    requires forall j :: 0 <= j < |fields| ==>
               |Serialize(fields[j].kind, inst.data[j].value).value| <= fields[j].maxLength
    requires !IsDeletedRow(conn.rowWidth, ToDb(fields, inst.data).value)
    ensures Save(conn, fields, inst).Ok? && Save(conn, fields, inst).value.1 == inst
    ensures Get(Save(conn, fields, inst).value.0, fields, inst.pk.value).Ok?
    ensures forall j :: 0 <= j < |fields| ==>
              Get(Save(conn, fields, inst).value.0, fields, inst.pk.value).value.data[j]
              == Some(Text(LJust(Serialize(fields[j].kind, inst.data[j].value).value, fields[j].maxLength)))
  {
    var pk, w := inst.pk.value, conn.rowWidth;
    var row := ToDb(fields, inst.data).value;
    ToDbWidth(fields, inst.data);
    SaveExistingWrites(conn, fields, inst);
    SlotInFile(conn.file, w, pk);
    WriteSlotReadBack(conn.file, w, pk, row);
    FromDbToDb(fields, inst.data);
  }

  /** Saving over an existing record leaves every other record as `get`
      reads it. */
  lemma SaveExistingKeepsOthers(conn: Connections.FileConnection, fields: seq<FieldDesc>, inst: Instance, other: int)
    requires Attached(conn, fields) && inst.pk.Some? && |inst.data| == |fields|
    requires Save(conn, fields, inst).Ok? && other != inst.pk.value
    ensures Get(Save(conn, fields, inst).value.0, fields, other) == Get(conn, fields, other)
  {
    var pk, w := inst.pk.value, conn.rowWidth;
    var row := ToDb(fields, inst.data).value;
    SaveExistingWrites(conn, fields, inst);
    var file' := WriteAt(conn.file, pk * w, row);
    SlotInFile(conn.file, w, pk);
    WriteSlotFrame(conn.file, w, pk, row);
    if 0 <= other < Connections.Count(conn) {
      assert Slot(file', w, other) == Slot(conn.file, w, other);
    }
  }

  /** `Model.delete`: does nothing when the pk is None or 0 (the check is
      `if self.pk:`), otherwise deletes that record through the connection. */
  function Delete(conn: Connections.FileConnection, fields: seq<FieldDesc>, inst: Instance)
    : (r: Result<Connections.FileConnection>)
    requires Attached(conn, fields)
    ensures inst.pk.None? || inst.pk == Some(0) ==> r == Ok(conn)
    ensures r.Ok? ==> r.value.rowWidth == conn.rowWidth && |r.value.file| == |conn.file|
    ensures inst.pk.Some? && inst.pk.value != 0 ==>
              && (r.Ok? <==> 0 < inst.pk.value < Connections.Count(conn))
              && (r.Err? ==> r.error == (if inst.pk.value < 0 then InvalidSeek else ObjectDoesNotExist))
    ensures inst.pk.Some? && inst.pk.value != 0 && r.Ok? ==>
              && Get(r.value, fields, inst.pk.value) == Err(ObjectDoesNotExist)
              && IsDeletedRow(conn.rowWidth, Slot(r.value.file, conn.rowWidth, inst.pk.value))
              && forall j: nat :: j != inst.pk.value ==>
                   Slot(r.value.file, conn.rowWidth, j) == Slot(conn.file, conn.rowWidth, j)
  {
    if inst.pk.None? || inst.pk.value == 0 then Ok(conn)
    else
      var r := Connections.Delete(conn, inst.pk.value);
      if r.Ok? then
        Connections.DeleteThenGet(conn, inst.pk.value, inst.pk.value + 1);
        r
      else r
  }

  /** Record 0 cannot be deleted through the model: deleting an instance
      with pk 0 leaves a live record 0 readable. */
  lemma RecordZeroNeverDeleted(conn: Connections.FileConnection, fields: seq<FieldDesc>, data: seq<Option<Value>>)
    requires Attached(conn, fields) && Connections.Get(conn, 0).Ok?
    ensures Delete(conn, fields, Instance(Some(0), data)).Ok?
    ensures Get(Delete(conn, fields, Instance(Some(0), data)).value, fields, 0).Ok?
  {
  }

  /** `Model.all`: `fetch_all`'s rows decoded, each with the record number
      `fetch_all` paired it with: one instance per live slot, in ascending
      order, carrying that slot's number. */
  function All(conn: Connections.FileConnection, fields: seq<FieldDesc>): (insts: seq<Instance>)
    requires Attached(conn, fields)
    ensures |insts| == |LiveSlotsFrom(conn.file, conn.rowWidth, 0)|
    ensures forall i :: 0 <= i < |insts| ==>
              var slot := LiveSlotsFrom(conn.file, conn.rowWidth, 0)[i];
              insts[i] == Instance(Some(slot), FromDb(fields, Slot(conn.file, conn.rowWidth, slot)))
  {
    var rows := Connections.FetchAll(conn);
    seq(|rows|, i requires 0 <= i < |rows| => Instance(Some(rows[i].0), FromDb(fields, rows[i].1)))
  }

  /** Unlike the older store's `all`, the model's `all` attaches the right
      record number: every instance it yields for a whole slot is what
      `Model.get` returns for that pk. */
  lemma AllAgreesWithGet(conn: Connections.FileConnection, fields: seq<FieldDesc>, i: nat)
    requires Attached(conn, fields) && i < |All(conn, fields)|
    requires All(conn, fields)[i].pk.value < Connections.Count(conn)
    ensures Get(conn, fields, All(conn, fields)[i].pk.value) == Ok(All(conn, fields)[i])
  {
    var rows := Connections.FetchAll(conn);
    var k := rows[i].0;
    assert 0 <= k;
    SlotInFile(conn.file, conn.rowWidth, k);
  }
}

=== FILE: indexing.dfy ===
/** The secondary index: a trie of fixed-size pages inside one fixed
    block. Page 0 is the root; a pointer value of 0 means "absent". Each
    page holds 10 data pointers (a bucket of record numbers) and one child
    pointer per symbol of the 62-symbol alphabet. The block is passed
    explicitly instead of living in a process-wide global. */
module Indexing {
  import opened Common

  /** The `n` consecutive ASCII characters starting at code `lo`. */
  function AsciiRun(lo: nat, n: nat): (r: string)
    requires lo + n <= 128
    ensures |r| == n && forall i :: 0 <= i < n ==> r[i] as int == lo + i
  {
    seq(n, i requires 0 <= i < n => (lo + i) as char)
  }

  /** `CHARSET = string.ascii_letters + string.digits`: the lower-case
      letters, the upper-case letters, then the digits. */
  const Charset: string := AsciiRun('a' as nat, 26) + AsciiRun('A' as nat, 26) + AsciiRun('0' as nat, 10)

  /** `DataPointerArray._length_`. */
  const DataPtrCount: nat := 10

  /** `Pages._length_`. */
  const PageCount: nat := 1000

  /** `FieldIndex.max_depth`: the number of leading characters indexed. */
  const MaxDepth: nat := 3

  const MinCInt: int := -0x8000_0000
  const MaxCInt: int := 0x7fff_ffff

  /** Storing a Python int into a `ctypes.c_int` keeps its low 32 bits, read
      back as a signed value. */
  function CInt(x: int): (r: int)
    ensures MinCInt <= r <= MaxCInt
    ensures (x - r) % 0x1_0000_0000 == 0
    ensures MinCInt <= x <= MaxCInt ==> r == x
  {
    (x + 0x8000_0000) % 0x1_0000_0000 - 0x8000_0000
  }

  /** The index of the first `x` in `s`, or `|s|` when there is none. */
  function IndexOf<T(==)>(s: seq<T>, x: T): (r: nat)
    ensures r <= |s|
    ensures r < |s| ==> s[r] == x
    ensures forall j :: 0 <= j < r ==> s[j] != x
    ensures r < |s| <==> x in s
  {
    if |s| == 0 then 0
    else if s[0] == x then 0
    else 1 + IndexOf(s[1..], x)
  }

  /** `len(CHARSET)`: the number of child pointers of a page. */
  const CharCount: nat := 62

  /** `CHARSET.index(c)`, computed from the code point: ValueError for a
      character outside the alphabet. `CharIndexIsIndexOf` shows this is the
      position of `c` in `Charset`. */
  function CharIndex(c: char): (r: Result<nat>)
    ensures r.Ok? ==> r.value < CharCount
    ensures r.Err? ==> r.error == ValueError
  {
    if 'a' <= c <= 'z' then Ok(c as int - 'a' as int)
    else if 'A' <= c <= 'Z' then Ok(c as int - 'A' as int + 26)
    else if '0' <= c <= '9' then Ok(c as int - '0' as int + 52)
    else Err(ValueError)
  }

  /** The code of each alphabet position. */
  lemma CharsetAt(j: nat)
    requires j < CharCount
    ensures |Charset| == CharCount
    ensures Charset[j] as int == if j < 26 then 'a' as int + j
                                 else if j < 52 then 'A' as int + (j - 26)
                                 else '0' as int + (j - 52)
  {
    var lower, upper, digits := AsciiRun('a' as nat, 26), AsciiRun('A' as nat, 26), AsciiRun('0' as nat, 10);
    assert Charset == lower + upper + digits;
    if j < 26 {
      assert Charset[j] == lower[j];
    } else if j < 52 {
      assert Charset[j] == upper[j - 26];
    } else {
      assert Charset[j] == digits[j - 52];
    }
  }

  /** The range-based `CharIndex` is `CHARSET.index`: it succeeds exactly on
      the characters of the alphabet, with the position of their first (and
      only) occurrence. */
  lemma CharIndexIsIndexOf(c: char)
    ensures |Charset| == CharCount
    ensures CharIndex(c).Ok? <==> c in Charset
    ensures CharIndex(c).Ok? ==> CharIndex(c).value == IndexOf(Charset, c) && Charset[CharIndex(c).value] == c
  {
    CharsetAt(0);
    if CharIndex(c).Ok? {
      var i := CharIndex(c).value;
      CharsetAt(i);
      var r := IndexOf(Charset, c);
      assert c in Charset;
      if r < i {
        CharsetAt(r);
      }
    } else {
      if c in Charset {
        var j :| 0 <= j < |Charset| && Charset[j] == c;
        CharsetAt(j);
      }
    }
  }

  /** One trie node: `curr` is the character it was created for. */
  datatype Page = Page(curr: char, dataPtrs: seq<int>, indexPtrs: seq<int>, nextPtr: int)

  /** The fixed array sizes of a page. */
  predicate PageShaped(p: Page) {
    |p.dataPtrs| == DataPtrCount && |p.indexPtrs| == CharCount
  }

  /** The index block: the free-page cursor and the page array. */
  datatype Block = Block(free: nat, pages: seq<Page>)

  predicate BlockShaped(b: Block) {
    |b.pages| == PageCount && forall i :: 0 <= i < |b.pages| ==> PageShaped(b.pages[i])
  }

  /** `Block.root`. */
  function Root(b: Block): (r: Page)
    requires BlockShaped(b)
    ensures PageShaped(r)
  {
    b.pages[0]
  }

  /** Indexing the page array with a pointer: a negative index counts from
      the end, anything else outside the array is an IndexError. */
  function PageIndex(ptr: int): (r: Result<nat>)
    ensures r.Ok? <==> -(PageCount as int) <= ptr < PageCount
    ensures r.Ok? ==> r.value < PageCount && (ptr >= 0 ==> r.value == ptr)
    ensures ptr < 0 && r.Ok? ==> r.value == ptr + PageCount
    ensures r.Err? ==> r.error == IndexError
  {
    if 0 <= ptr < PageCount then Ok(ptr)
    else if -(PageCount as int) <= ptr < 0 then Ok(ptr + PageCount)
    else Err(IndexError)
  }

  /** `Page.goto`: the page a character's child pointer designates, or
      None when that pointer is 0. */
  function Goto(p: Page, c: char): (r: Result<Option<nat>>)
    requires PageShaped(p)
    ensures CharIndex(c).Err? ==> r == Err(ValueError)
    ensures CharIndex(c).Ok? ==> var ptr := p.indexPtrs[CharIndex(c).value];
              && (r == Ok(None) <==> ptr == 0)
              && (0 < ptr < PageCount ==> r == Ok(Some(ptr)))
              && (-(PageCount as int) <= ptr < 0 ==> r == Ok(Some(ptr + PageCount)))
              && (r.Err? <==> ptr < -(PageCount as int) || PageCount <= ptr)
    ensures r.Err? ==> r.error == ValueError || r.error == IndexError
    ensures r.Ok? && r.value.Some? ==> r.value.value < PageCount
  {
    var idx :- CharIndex(c);
    var ptr := p.indexPtrs[idx];
    if ptr == 0 then Ok(None)
    else
      var target :- PageIndex(ptr);
      Ok(Some(target))
  }

  /** `goto` reads only the child pointers. */
  lemma GotoReadsLinksOnly(p: Page, q: Page, c: char)
    requires PageShaped(p) && PageShaped(q) && p.indexPtrs == q.indexPtrs
    ensures Goto(p, c) == Goto(q, c)
  {
  }

  /** The slot `add_data_ptr`'s loop stops at: the first zero slot, or the
      last slot when none is zero. */
  function FirstFree(ptrs: seq<int>): (i: nat)
    requires |ptrs| > 0
    ensures i < |ptrs|
    ensures (ptrs[i] == 0 && forall j :: 0 <= j < i ==> ptrs[j] != 0)
         || (i == |ptrs| - 1 && forall j :: 0 <= j < |ptrs| ==> ptrs[j] != 0)
  {
    var z := IndexOf(ptrs, 0);
    if z < |ptrs| then z else |ptrs| - 1
  }

  /** `Page.add_data_ptr`: the pointer goes into the first zero slot and no
      other slot changes; when all ten are taken it overwrites slot 9. */
  function AddDataPtr(p: Page, ptr: int): (r: Page)
    requires PageShaped(p)
    ensures PageShaped(r) && r.curr == p.curr && r.indexPtrs == p.indexPtrs && r.nextPtr == p.nextPtr
    ensures CInt(ptr) in r.dataPtrs
    ensures 0 in p.dataPtrs ==> r.dataPtrs == p.dataPtrs[IndexOf(p.dataPtrs, 0) := CInt(ptr)]
    ensures 0 !in p.dataPtrs ==> r.dataPtrs == p.dataPtrs[DataPtrCount - 1 := CInt(ptr)]
  {
    var i := FirstFree(p.dataPtrs);
    var r := p.(dataPtrs := p.dataPtrs[i := CInt(ptr)]);
    assert r.dataPtrs[i] == CInt(ptr);
    r
  }

  /** Page `q`'s bucket keeps every pointer page `p` had in slots 0 to 8:
      what `add_data_ptr` guarantees, since it writes only a zero slot or
      the last one. */
  predicate KeepsBucket(p: Page, q: Page)
    requires PageShaped(p) && PageShaped(q)
  {
    forall j :: 0 <= j < DataPtrCount - 1 && p.dataPtrs[j] != 0 ==> q.dataPtrs[j] == p.dataPtrs[j]
  }

  lemma AddDataPtrKeeps(p: Page, ptr: int)
    requires PageShaped(p)
    ensures KeepsBucket(p, AddDataPtr(p, ptr))
  {
  }

  lemma KeepsBucketTrans(p: Page, q: Page, r: Page)
    requires PageShaped(p) && PageShaped(q) && PageShaped(r)
    requires KeepsBucket(p, q) && KeepsBucket(q, r)
    ensures KeepsBucket(p, r)
  {
  }

  /** pk 0 is indistinguishable from an empty slot: adding it to a bucket
      with a free slot leaves the bucket as it was. */
  lemma AddZeroIsInvisible(p: Page)
    requires PageShaped(p) && 0 in p.dataPtrs
    ensures AddDataPtr(p, 0) == p
  {
    assert p.dataPtrs[IndexOf(p.dataPtrs, 0) := 0] == p.dataPtrs;
  }

  function Zeros(n: nat): (r: seq<int>)
    ensures |r| == n && forall i :: 0 <= i < n ==> r[i] == 0
  {
    seq(n, _ => 0)
  }

  /** The page `add_to_index` creates for character `c`: its bucket holds
      just `pk`, its child and next pointers are all 0. */
  function NewPage(c: char, pk: int): (p: Page)
    ensures PageShaped(p) && p.curr == c && p.nextPtr == 0
    ensures p.dataPtrs[0] == CInt(pk) && forall j :: 1 <= j < DataPtrCount ==> p.dataPtrs[j] == 0
    ensures forall j :: 0 <= j < |p.indexPtrs| ==> p.indexPtrs[j] == 0
  {
    Page(c, [CInt(pk)] + Zeros(DataPtrCount - 1), Zeros(CharCount), 0)
  }

  /** `Block.add_page` with `free` read as the integer cursor it is meant
      to be (see `AddPageAsWritten`): a zero cursor is first set to 1, then
      the page is stored at the cursor, which never advances. Page 0 is
      never written. */
  function AddPage(b: Block, page: Page): (r: Result<Block>)
    requires BlockShaped(b) && PageShaped(page)
    ensures r.Ok? <==> b.free < PageCount
    ensures r.Err? ==> r.error == IndexError
    ensures r.Ok? ==> && BlockShaped(r.value)
                      && r.value.free == Max(b.free, 1)
                      && r.value.pages[r.value.free] == page
                      && r.value.pages[0] == b.pages[0]
                      && forall i :: 0 <= i < PageCount && i != r.value.free ==> r.value.pages[i] == b.pages[i]
  {
    var slot := if b.free == 0 then 1 else b.free;
    if slot >= PageCount then Err(IndexError)
    else Ok(Block(slot, b.pages[slot := page]))
  }

  /** Repeated `add_page` calls overwrite the same page: the second call
      undoes the first. */
  lemma AddPageOverwrites(b: Block, p: Page, q: Page)
    requires BlockShaped(b) && PageShaped(p) && PageShaped(q) && AddPage(b, p).Ok?
    ensures AddPage(AddPage(b, p).value, q) == AddPage(b, q)
  {
    var b1 := AddPage(b, p).value;
    assert b1.pages[b1.free := q] == b.pages[b1.free := q];
  }

  /** `needle[:n]`. */
  function Take(s: string, n: nat): (r: string)
    ensures |r| == if |s| <= n then |s| else n
    ensures r == s[..|r|]
  {
    if |s| <= n then s else s[..n]
  }

  /** `find`'s loop from page `node`: follows one child pointer per
      character, stops with None at the first absent child, and otherwise
      returns the bucket of the page it ends on. */
  function FindFrom(b: Block, node: nat, chars: string): (r: Result<Option<seq<int>>>)
    requires BlockShaped(b) && node < PageCount
    ensures r.Err? ==> r.error == ValueError || r.error == IndexError
    ensures r.Ok? && r.value.Some? ==> |r.value.value| == DataPtrCount
    decreases |chars|
  {
    if chars == [] then Ok(Some(b.pages[node].dataPtrs))
    else
      var child :- Goto(b.pages[node], chars[0]);
      if child.None? then Ok(None) else FindFrom(b, child.value, chars[1..])
  }

  /** `FieldIndex.find`: walks at most `max_depth` characters from the root. */
  function Find(b: Block, needle: string): (r: Result<Option<seq<int>>>)
    requires BlockShaped(b)
    ensures needle == [] ==> r == Ok(Some(Root(b).dataPtrs))
    ensures needle != [] && Goto(Root(b), needle[0]) == Ok(None) ==> r == Ok(None)
    ensures needle != [] && CharIndex(needle[0]).Err? ==> r == Err(ValueError)
    ensures r.Err? ==> r.error == ValueError || r.error == IndexError
  {
    FindFrom(b, 0, Take(needle, MaxDepth))
  }

  /** Characters past `max_depth` are never looked at. */
  lemma FindIgnoresTail(b: Block, needle: string, rest: string)
    requires BlockShaped(b) && |needle| >= MaxDepth
    ensures Find(b, needle + rest) == Find(b, needle)
  {
    assert Take(needle + rest, MaxDepth) == Take(needle, MaxDepth);
  }

  /** `nodes` traces the child pointers that `chars` spells: each page's
      child for the next character is present and is the next page. */
  predicate Follows(b: Block, chars: string, nodes: seq<nat>)
    requires BlockShaped(b)
  {
    && |nodes| <= |chars| + 1
    && (forall k :: 0 <= k < |nodes| ==> nodes[k] < PageCount)
    && forall k :: 0 <= k < |nodes| - 1 ==> Goto(b.pages[nodes[k]], chars[k]) == Ok(Some(nodes[k + 1]))
  }

  /** A route through all of `chars`. */
  predicate IsPath(b: Block, chars: string, nodes: seq<nat>)
    requires BlockShaped(b)
  {
    Follows(b, chars, nodes) && |nodes| == |chars| + 1
  }

  lemma FollowsCons(b: Block, chars: string, node: nat, rest: seq<nat>)
    requires BlockShaped(b) && chars != [] && node < PageCount && rest != []
    requires Follows(b, chars[1..], rest) && Goto(b.pages[node], chars[0]) == Ok(Some(rest[0]))
    ensures Follows(b, chars, [node] + rest)
  {
    var nodes := [node] + rest;
    forall k | 0 <= k < |nodes| - 1
      ensures Goto(b.pages[nodes[k]], chars[k]) == Ok(Some(nodes[k + 1]))
    {
      if k > 0 {
        assert nodes[k] == rest[k - 1] && nodes[k + 1] == rest[k] && chars[k] == chars[1..][k - 1];
      }
    }
  }

  lemma FollowsTail(b: Block, chars: string, nodes: seq<nat>)
    requires BlockShaped(b) && chars != [] && |nodes| >= 2 && Follows(b, chars, nodes)
    ensures Follows(b, chars[1..], nodes[1..])
    ensures Goto(b.pages[nodes[0]], chars[0]) == Ok(Some(nodes[1]))
  {
    var rest := nodes[1..];
    forall k | 0 <= k < |rest| - 1
      ensures Goto(b.pages[rest[k]], chars[1..][k]) == Ok(Some(rest[k + 1]))
    {
      assert rest[k] == nodes[k + 1] && rest[k + 1] == nodes[k + 2] && chars[1..][k] == chars[k + 1];
    }
  }

  /** Routes depend on links only. */
  lemma FollowsSameLinks(b: Block, b1: Block, chars: string, nodes: seq<nat>)
    requires BlockShaped(b) && BlockShaped(b1) && SameLinks(b, b1) && Follows(b1, chars, nodes)
    ensures Follows(b, chars, nodes)
  {
    forall k | 0 <= k < |nodes| - 1
      ensures Goto(b.pages[nodes[k]], chars[k]) == Ok(Some(nodes[k + 1]))
    {
      GotoReadsLinksOnly(b.pages[nodes[k]], b1.pages[nodes[k]], chars[k]);
    }
  }

  /** Following a route, `find` ends on the route's last page. */
  lemma {:induction false} PathFinds(b: Block, chars: string, nodes: seq<nat>)
    requires BlockShaped(b) && IsPath(b, chars, nodes)
    ensures FindFrom(b, nodes[0], chars) == Ok(Some(b.pages[nodes[|nodes| - 1]].dataPtrs))
    decreases |chars|
  {
    if chars != [] {
      FollowsTail(b, chars, nodes);
      PathFinds(b, chars[1..], nodes[1..]);
    }
  }

  /** The route behind a bucket `find` returns. */
  lemma {:induction false} FindsPath(b: Block, node: nat, chars: string, ptrs: seq<int>) returns (nodes: seq<nat>)
    requires BlockShaped(b) && node < PageCount && FindFrom(b, node, chars) == Ok(Some(ptrs))
    ensures IsPath(b, chars, nodes) && nodes[0] == node && b.pages[nodes[|nodes| - 1]].dataPtrs == ptrs
    decreases |chars|
  {
    if chars == [] {
      nodes := [node];
    } else {
      var child := Goto(b.pages[node], chars[0]).value.value;
      assert FindFrom(b, child, chars[1..]) == Ok(Some(ptrs));
      var rest := FindsPath(b, child, chars[1..], ptrs);
      FollowsCons(b, chars, node, rest);
      nodes := [node] + rest;
    }
  }

  /** A route that reaches a page with no child for the next character
      makes `find` stop there with None, at whatever depth. */
  lemma {:induction false} BrokenPathFindsNone(b: Block, chars: string, nodes: seq<nat>)
    requires BlockShaped(b) && Follows(b, chars, nodes) && 0 < |nodes| <= |chars|
    requires Goto(b.pages[nodes[|nodes| - 1]], chars[|nodes| - 1]) == Ok(None)
    ensures FindFrom(b, nodes[0], chars) == Ok(None)
    decreases |chars|
  {
    if |nodes| > 1 {
      FollowsTail(b, chars, nodes);
      assert chars[1..][|nodes| - 2] == chars[|nodes| - 1];
      BrokenPathFindsNone(b, chars[1..], nodes[1..]);
    }
  }

  /** The broken route behind a None from `find`. */
  lemma {:induction false} FindsBrokenPath(b: Block, node: nat, chars: string) returns (nodes: seq<nat>)
    requires BlockShaped(b) && node < PageCount && FindFrom(b, node, chars) == Ok(None)
    ensures Follows(b, chars, nodes) && 0 < |nodes| <= |chars| && nodes[0] == node
    ensures Goto(b.pages[nodes[|nodes| - 1]], chars[|nodes| - 1]) == Ok(None)
    decreases |chars|
  {
    var c := Goto(b.pages[node], chars[0]).value;
    if c.None? {
      nodes := [node];
    } else {
      var rest := FindsBrokenPath(b, c.value, chars[1..]);
      FollowsCons(b, chars, node, rest);
      nodes := [node] + rest;
      assert chars[1..][|rest| - 1] == chars[|nodes| - 1];
    }
  }

  /** `find` returns None exactly when the needle's first (at most three)
      characters lead from the root along present child pointers to a page
      that has no child for the next of those characters. */
  lemma FindIsNone(b: Block, needle: string)
    requires BlockShaped(b)
    ensures Find(b, needle) == Ok(None) <==>
              exists nodes: seq<nat> ::
                && Follows(b, Take(needle, MaxDepth), nodes) && 0 < |nodes| <= |Take(needle, MaxDepth)| && nodes[0] == 0
                && Goto(b.pages[nodes[|nodes| - 1]], Take(needle, MaxDepth)[|nodes| - 1]) == Ok(None)
  {
    var chars := Take(needle, MaxDepth);
    if Find(b, needle) == Ok(None) {
      var nodes := FindsBrokenPath(b, 0, chars);
    }
    forall nodes: seq<nat> | Follows(b, chars, nodes) && 0 < |nodes| <= |chars| && nodes[0] == 0
                              && Goto(b.pages[nodes[|nodes| - 1]], chars[|nodes| - 1]) == Ok(None)
      ensures Find(b, needle) == Ok(None)
    {
      BrokenPathFindsNone(b, chars, nodes);
    }
  }

  /** `find` returns a bucket exactly when the needle's first (at most
      three) characters spell a route of present child pointers from the
      root, and the bucket is the one of the page where the route ends. */
  lemma FindIsPath(b: Block, needle: string, ptrs: seq<int>)
    requires BlockShaped(b)
    ensures Find(b, needle) == Ok(Some(ptrs)) <==>
              exists nodes :: IsPath(b, Take(needle, MaxDepth), nodes) && nodes[0] == 0
                              && b.pages[nodes[|nodes| - 1]].dataPtrs == ptrs
  {
    var chars := Take(needle, MaxDepth);
    if Find(b, needle) == Ok(Some(ptrs)) {
      var nodes := FindsPath(b, 0, chars, ptrs);
    }
    if exists nodes :: IsPath(b, chars, nodes) && nodes[0] == 0 && b.pages[nodes[|nodes| - 1]].dataPtrs == ptrs {
      var nodes :| IsPath(b, chars, nodes) && nodes[0] == 0 && b.pages[nodes[|nodes| - 1]].dataPtrs == ptrs;
      PathFinds(b, chars, nodes);
    }
  }

  /** No page has a present child pointer. */
  predicate NoLinks(b: Block) {
    forall i, j :: 0 <= i < |b.pages| && 0 <= j < |b.pages[i].indexPtrs| ==> b.pages[i].indexPtrs[j] == 0
  }

  /** Two blocks differ at most in their buckets. */
  predicate SameLinks(b: Block, b': Block)
    requires BlockShaped(b) && BlockShaped(b')
  {
    forall i :: 0 <= i < PageCount ==>
      && b'.pages[i].indexPtrs == b.pages[i].indexPtrs
      && b'.pages[i].curr == b.pages[i].curr
      && b'.pages[i].nextPtr == b.pages[i].nextPtr
  }

  /** One step of the walk: `pk` added to the bucket of page `node`. */
  function AddToBucket(b: Block, node: nat, pk: int): (r: Block)
    requires BlockShaped(b) && node < PageCount
    ensures BlockShaped(r) && r.free == b.free && SameLinks(b, r)
    ensures r.pages[node] == AddDataPtr(b.pages[node], pk)
    ensures forall i :: 0 <= i < PageCount && i != node ==> r.pages[i] == b.pages[i]
  {
    b.(pages := b.pages[node := AddDataPtr(b.pages[node], pk)])
  }

  /** The walk of `add_to_index` from page `node` at depth `d`: at each
      step it looks up the child for `chars[d]`, then adds `pk` to the
      current page's bucket, and goes on only if the child is present.
      Returns the block and the pages whose bucket received `pk`, root
      first; `WalkRoute` and `WalkEffects` say which pages those are and
      what happened to them. */
  function Walk(b: Block, node: nat, chars: string, d: nat, pk: int): (r: Result<(Block, seq<nat>)>)
    requires BlockShaped(b) && node < PageCount && d < |chars|
    ensures r.Err? ==> r.error == ValueError || r.error == IndexError
    ensures r.Ok? ==> BlockShaped(r.value.0) && r.value.0.free == b.free
    ensures r.Ok? ==> 1 <= |r.value.1| <= |chars| - d && r.value.1[0] == node
    ensures r.Ok? ==> forall k :: 0 <= k < |r.value.1| ==> r.value.1[k] < PageCount
    decreases |chars| - d
  {
    var child :- Goto(b.pages[node], chars[d]);
    var b1 := AddToBucket(b, node, pk);
    if child.Some? && d + 1 < |chars| then
      var rest :- Walk(b1, child.value, chars, d + 1, pk);
      Ok((rest.0, [node] + rest.1))
    else
      Ok((b1, [node]))
  }

  /** The walk's route is the one the block's links spell: each step
      follows a present child pointer. */
  lemma {:induction false} WalkRoute(b: Block, node: nat, chars: string, d: nat, pk: int)
    requires BlockShaped(b) && node < PageCount && d < |chars| && Walk(b, node, chars, d, pk).Ok?
    ensures Follows(b, chars[d..], Walk(b, node, chars, d, pk).value.1)
    decreases |chars| - d
  {
    var child := Goto(b.pages[node], chars[d]).value;
    var b1 := AddToBucket(b, node, pk);
    if child.Some? && d + 1 < |chars| {
      WalkRoute(b1, child.value, chars, d + 1, pk);
      var rest := Walk(b1, child.value, chars, d + 1, pk).value.1;
      assert Walk(b, node, chars, d, pk).value.1 == [node] + rest;
      FollowsSameLinks(b, b1, chars[d + 1..], rest);
      assert chars[d..][1..] == chars[d + 1..];
      FollowsCons(b, chars[d..], node, rest);
    }
  }

  /** One step of `Walk` when the child is present and characters remain:
      the route is `node` followed by the route from the child. */
  lemma WalkStep(b: Block, node: nat, chars: string, d: nat, pk: int)
    requires BlockShaped(b) && node < PageCount && d < |chars| && Walk(b, node, chars, d, pk).Ok?
    requires Goto(b.pages[node], chars[d]).Ok? && Goto(b.pages[node], chars[d]).value.Some? && d + 1 < |chars|
    ensures var next := Goto(b.pages[node], chars[d]).value.value;
            && Walk(AddToBucket(b, node, pk), next, chars, d + 1, pk).Ok?
            && Walk(b, node, chars, d, pk).value.1 == [node] + Walk(AddToBucket(b, node, pk), next, chars, d + 1, pk).value.1
  {
  }

  /** A walk from depth `d` that visited `trail` stopped for a reason: no
      characters were left, or the last page has no child for the last
      character read. */
  predicate StopsAt(b: Block, chars: string, d: nat, trail: seq<nat>)
    requires BlockShaped(b) && 0 < |trail| && d + |trail| <= |chars| && trail[|trail| - 1] < PageCount
  {
    d + |trail| == |chars| || Goto(b.pages[trail[|trail| - 1]], chars[d + |trail| - 1]) == Ok(None)
  }

  /** Whether a walk stopped depends neither on the buckets nor on the
      pages visited before the last one. */
  lemma StopsAtCons(b: Block, b': Block, chars: string, d: nat, node: nat, rest: seq<nat>)
    requires BlockShaped(b) && BlockShaped(b') && SameLinks(b, b')
    requires 0 < |rest| && d + 1 + |rest| <= |chars| && rest[|rest| - 1] < PageCount
    requires StopsAt(b', chars, d + 1, rest)
    ensures StopsAt(b, chars, d, [node] + rest)
  {
    var trail := [node] + rest;
    assert |trail| == 1 + |rest| && trail[|trail| - 1] == rest[|rest| - 1];
    GotoReadsLinksOnly(b.pages[rest[|rest| - 1]], b'.pages[rest[|rest| - 1]], chars[d + |rest|]);
  }

  /** The walk ends at the first absent child or after the last character. */
  lemma {:induction false} WalkStops(b: Block, node: nat, chars: string, d: nat, pk: int)
    requires BlockShaped(b) && node < PageCount && d < |chars| && Walk(b, node, chars, d, pk).Ok?
    ensures StopsAt(b, chars, d, Walk(b, node, chars, d, pk).value.1)
    decreases |chars| - d
  {
    var child := Goto(b.pages[node], chars[d]);
    if child.value.Some? && d + 1 < |chars| {
      var b1 := AddToBucket(b, node, pk);
      WalkStep(b, node, chars, d, pk);
      WalkStops(b1, child.value.value, chars, d + 1, pk);
      StopsAtCons(b, b1, chars, d, node, Walk(b1, child.value.value, chars, d + 1, pk).value.1);
    }
  }

  /** The walk changes buckets only: pages off the route are untouched and
      every page on it holds `pk` afterwards. */
  lemma {:induction false} WalkEffects(b: Block, node: nat, chars: string, d: nat, pk: int)
    requires BlockShaped(b) && node < PageCount && d < |chars| && Walk(b, node, chars, d, pk).Ok?
    ensures var (b', trail) := Walk(b, node, chars, d, pk).value;
            && SameLinks(b, b')
            && (forall i :: 0 <= i < PageCount && i !in trail ==> b'.pages[i] == b.pages[i])
            && (forall i :: i in trail ==> CInt(pk) in b'.pages[i].dataPtrs)
            && (forall i :: i in trail ==> KeepsBucket(b.pages[i], b'.pages[i]))
    decreases |chars| - d
  {
    var child := Goto(b.pages[node], chars[d]).value;
    var b1 := AddToBucket(b, node, pk);
    AddDataPtrKeeps(b.pages[node], pk);
    if child.Some? && d + 1 < |chars| {
      WalkEffects(b1, child.value, chars, d + 1, pk);
      var (b', rest) := Walk(b1, child.value, chars, d + 1, pk).value;
      assert Walk(b, node, chars, d, pk) == Ok((b', [node] + rest));
      assert CInt(pk) in b'.pages[node].dataPtrs by {
        if node !in rest {
          assert b'.pages[node] == b1.pages[node];
        }
      }
      forall i | i in [node] + rest
        ensures KeepsBucket(b.pages[i], b'.pages[i])
      {
        if i in rest {
          KeepsBucketTrans(b.pages[i], b1.pages[i], b'.pages[i]);
        } else {
          assert b'.pages[i] == b1.pages[i];
        }
      }
    }
  }

  /** The page-creating loop of `add_to_index`: one `add_page` per
      character, each storing a fresh page at the same cursor slot, so only
      the page for the last character survives. */
  function CreatePages(b: Block, cs: string, pk: int): (r: Result<Block>)
    requires BlockShaped(b)
    ensures r.Ok? <==> cs == [] || b.free < PageCount
    ensures r.Err? ==> r.error == IndexError
    ensures cs == [] ==> r == Ok(b)
    ensures r.Ok? && cs != [] ==>
              && BlockShaped(r.value)
              && r.value.free == Max(b.free, 1) < PageCount
              && r.value.pages[r.value.free] == NewPage(cs[|cs| - 1], pk)
              && forall i :: 0 <= i < PageCount && i != r.value.free ==> r.value.pages[i] == b.pages[i]
    decreases |cs|
  {
    if cs == [] then Ok(b)
    else
      var b1 :- AddPage(b, NewPage(cs[0], pk));
      CreatePages(b1, cs[1..], pk)
  }

  /** `FieldIndex.add_to_index` for value `value` and record `pk`. An empty
      value leaves the loop variable unbound (a NameError). Otherwise the
      walk adds `pk` to the root's bucket, and pages are then created for
      `value[depth:3]` without ever being linked in: every page keeps its
      child pointers, except the one at the cursor, which is replaced by a
      fresh page with none. */
  function AddToIndex(b: Block, value: string, pk: int): (r: Result<Block>)
    requires BlockShaped(b)
    ensures value == [] ==> r == Err(NameError)
    ensures r.Err? ==> r.error in {NameError, ValueError, IndexError}
    ensures r.Ok? ==> && value != []
                      && BlockShaped(r.value)
                      && r.value.free == Max(b.free, 1) < PageCount
                      && r.value.pages[r.value.free] == NewPage(Take(value, MaxDepth)[|Take(value, MaxDepth)| - 1], pk)
                      && CInt(pk) in r.value.pages[0].dataPtrs
                      && forall i :: 0 <= i < PageCount && i != r.value.free ==>
                           r.value.pages[i].indexPtrs == b.pages[i].indexPtrs
  {
    var chars := Take(value, MaxDepth);
    if chars == [] then Err(NameError)
    else
      var walked :- Walk(b, 0, chars, 0, pk);
      WalkEffects(b, 0, chars, 0, pk);
      var depth := |walked.1| - 1;
      if depth < MaxDepth then
        CreatePages(walked.0, chars[depth..], pk)
      else Ok(walked.0)
  }

  /** After the walk, `add_to_index` touches only the cursor page. */
  lemma AddToIndexAfterWalk(b: Block, value: string, pk: int)
    requires BlockShaped(b) && AddToIndex(b, value, pk).Ok?
    ensures Take(value, MaxDepth) != [] && Walk(b, 0, Take(value, MaxDepth), 0, pk).Ok?
    ensures var r, mid := AddToIndex(b, value, pk).value, Walk(b, 0, Take(value, MaxDepth), 0, pk).value.0;
            forall i :: 0 <= i < PageCount && i != r.free ==> r.pages[i] == mid.pages[i]
  {
    var chars := Take(value, MaxDepth);
    var (mid, trail) := Walk(b, 0, chars, 0, pk).value;
    var rest := chars[|trail| - 1..];
    assert rest != [] && AddToIndex(b, value, pk) == CreatePages(mid, rest, pk);
  }

  /** Which buckets `add_to_index` fills: there is a route starting at the
      root, following present child pointers for the leading characters
      and ending at the first absent child or after the last character;
      every page on it except the cursor page holds `pk`, and every other
      page except the cursor page is untouched. In particular the page a
      full walk reaches last does not receive `pk` unless it was already on
      the route or is the cursor page. */
  lemma AddToIndexRoute(b: Block, value: string, pk: int)
    requires BlockShaped(b) && AddToIndex(b, value, pk).Ok?
    ensures var chars, r := Take(value, MaxDepth), AddToIndex(b, value, pk).value;
            exists trail: seq<nat> ::
              && 1 <= |trail| <= |chars| && trail[0] == 0
              && Follows(b, chars, trail)
              && StopsAt(b, chars, 0, trail)
              && (forall i :: 0 <= i < PageCount && i != r.free && i in trail ==> CInt(pk) in r.pages[i].dataPtrs)
              && (forall i :: 0 <= i < PageCount && i != r.free && i in trail ==> KeepsBucket(b.pages[i], r.pages[i]))
              && (forall i :: 0 <= i < PageCount && i != r.free && i !in trail ==> r.pages[i] == b.pages[i])
  {
    var chars := Take(value, MaxDepth);
    AddToIndexAfterWalk(b, value, pk);
    WalkRoute(b, 0, chars, 0, pk);
    WalkStops(b, 0, chars, 0, pk);
    WalkEffects(b, 0, chars, 0, pk);
    assert chars[0..] == chars;
  }

  /** The index never becomes searchable: starting from a block without
      links (such as the zero-filled block), `add_to_index` keeps it
      without links, so afterwards `find` of any needle starting with an
      alphabet character returns None, while `find("")` returns the root's
      bucket, which holds `pk`. */
  lemma AddToIndexNeverLinks(b: Block, value: string, pk: int, needle: string)
    requires BlockShaped(b) && NoLinks(b) && AddToIndex(b, value, pk).Ok?
    ensures NoLinks(AddToIndex(b, value, pk).value)
    ensures needle != [] && CharIndex(needle[0]).Ok? ==> Find(AddToIndex(b, value, pk).value, needle) == Ok(None)
    ensures Find(AddToIndex(b, value, pk).value, []) == Ok(Some(AddToIndex(b, value, pk).value.pages[0].dataPtrs))
    ensures CInt(pk) in AddToIndex(b, value, pk).value.pages[0].dataPtrs
  {
    var r := AddToIndex(b, value, pk).value;
    forall i, j | 0 <= i < |r.pages| && 0 <= j < |r.pages[i].indexPtrs|
      ensures r.pages[i].indexPtrs[j] == 0
    {
      if i != r.free {
        assert r.pages[i].indexPtrs == b.pages[i].indexPtrs;
      }
    }
  }

  /** `Block.add_page` as written. `free` is declared a `c_char` field, and
      ctypes reads such a field back as a one-character str. That str is
      never false, so `self.free = 1` never runs, and `self.pages[self.free]`
      indexes the page array with a str, which raises TypeError. */
  function AddPageAsWritten(b: Block, page: Page): (r: Result<Block>)
    requires BlockShaped(b) && PageShaped(page)
  {
    Err(TypeError)
  }

  /** Wherever the integer-cursor `add_page` stores the page, the code as
      written raises TypeError instead. */
  lemma AddPageAsWrittenFails(b: Block, page: Page)
    requires BlockShaped(b) && PageShaped(page) && b.free < PageCount
    ensures AddPage(b, page).Ok?
    ensures AddPageAsWritten(b, page) == Err(TypeError)
  {
  }

  /** The page-creating loop of `add_to_index` with `AddPageAsWritten`: the
      first `add_page` raises, so the loop never gets past it. */
  function CreatePagesAsWritten(b: Block, cs: string, pk: int): (r: Result<Block>)
    requires BlockShaped(b)
    ensures cs == [] ==> r == Ok(b)
    ensures cs != [] ==> r == Err(TypeError)
  {
    if cs == [] then Ok(b) else AddPageAsWritten(b, NewPage(cs[0], pk))
  }

  /** `FieldIndex.add_to_index` with `AddPageAsWritten`: the walk, then the
      page-creating loop, which always has a character to create a page
      for, because the walk stops at depth at most 2. */
  function AddToIndexAsWritten(b: Block, value: string, pk: int): (r: Result<Block>)
    requires BlockShaped(b)
    ensures r.Err?
    ensures value != [] && Walk(b, 0, Take(value, MaxDepth), 0, pk).Ok? ==> r == Err(TypeError)
  {
    var chars := Take(value, MaxDepth);
    if chars == [] then Err(NameError)
    else
      var walked :- Walk(b, 0, chars, 0, pk);
      var depth := |walked.1| - 1;
      if depth < MaxDepth then CreatePagesAsWritten(walked.0, chars[depth..], pk)
      else Ok(walked.0)
  }

  /** The discrepancy: on a block without links, indexing a value that
      starts with an alphabet character succeeds with the integer cursor
      and always raises TypeError as written. */
  lemma AddToIndexAsWrittenFails(b: Block, value: string, pk: int)
    requires BlockShaped(b) && NoLinks(b) && b.free < PageCount
    requires value != [] && CharIndex(value[0]).Ok?
    ensures AddToIndex(b, value, pk).Ok?
    ensures AddToIndexAsWritten(b, value, pk) == Err(TypeError)
  {
    var chars := Take(value, MaxDepth);
    assert chars[0] == value[0];
    var idx := CharIndex(chars[0]).value;
    assert b.pages[0].indexPtrs[idx] == 0;
    assert Goto(b.pages[0], chars[0]) == Ok(None);
    assert Walk(b, 0, chars, 0, pk) == Ok((AddToBucket(b, 0, pk), [0]));
  }
}

=== FILE: record_file.dfy ===
/** The backing file of a store as an in-memory byte sequence: the
    positioned read and write that `seek` followed by `read`/`write`
    perform, and the division of the file into fixed-width slots shared
    by both store variants. */
module RecordFile {
  import opened Common

  /** `f.seek(pos); f.read(n)`: up to `n` bytes from `pos`, short at the
      end of the file and empty past it. */
  function ReadAt(file: seq<byte>, pos: nat, n: nat): (r: seq<byte>)
    ensures |r| == if pos >= |file| then 0 else if pos + n <= |file| then n else |file| - pos
    ensures forall i :: 0 <= i < |r| ==> r[i] == file[pos + i]
  {
    if pos >= |file| then []
    else if pos + n <= |file| then file[pos..pos + n]
    else file[pos..]
  }

  /** `f.seek(pos); f.write(data)`: overwrites in place and extends the
      file when `data` runs past its end; a gap between the old end and
      `pos` reads back as NUL bytes. */
  function WriteAt(file: seq<byte>, pos: nat, data: seq<byte>): (r: seq<byte>)
    ensures |r| == Max(|file|, pos + |data|)
    ensures forall i :: 0 <= i < |data| ==> r[pos + i] == data[i]
    ensures forall i :: 0 <= i < |r| && !(pos <= i < pos + |data|) ==>
              r[i] == (if i < |file| then file[i] else Nul)
  {
    var head := if pos <= |file| then file[..pos] else file + Nuls(pos - |file|);
    var tail := if pos + |data| < |file| then file[pos + |data|..] else [];
    head + data + tail
  }

  /** Writing at the end of the file appends. */
  lemma WriteAtEndAppends(file: seq<byte>, data: seq<byte>)
    ensures WriteAt(file, |file|, data) == file + data
  {
    var r := WriteAt(file, |file|, data);
    assert |r| == |file + data|;
    forall i | 0 <= i < |r|
      ensures r[i] == (file + data)[i]
    {
      if i >= |file| {
        assert r[|file| + (i - |file|)] == data[i - |file|];
      }
    }
  }

  /** Writing inside the file overwrites exactly the bytes written and
      keeps the length. */
  lemma WriteInPlace(file: seq<byte>, pos: nat, data: seq<byte>)
    requires pos + |data| <= |file|
    ensures |WriteAt(file, pos, data)| == |file|
    ensures forall i :: 0 <= i < |file| ==>
              WriteAt(file, pos, data)[i] == if pos <= i < pos + |data| then data[i - pos] else file[i]
  {
    var f := WriteAt(file, pos, data);
    forall i | pos <= i < pos + |data|
      ensures f[i] == data[i - pos]
    {
      assert f[pos + (i - pos)] == data[i - pos];
    }
  }

  /** The `w`-wide chunk that starts at byte `k * w`: slot `k`. */
  function Slot(file: seq<byte>, w: nat, k: nat): (r: seq<byte>) {
    ReadAt(file, k * w, w)
  }

  /** `_is_deleted_row`: a row is a tombstone iff it is exactly `w` NUL bytes. */
  predicate IsDeletedRow(w: nat, row: seq<byte>) {
    row == Nuls(w)
  }

  /** A tombstone, byte by byte: the row has the slot width and every byte is NUL. */
  lemma IsDeletedRowMeans(w: nat, row: seq<byte>)
    ensures IsDeletedRow(w, row) <==> |row| == w && forall i :: 0 <= i < |row| ==> row[i] == Nul
  {
  }

  /** Number of whole slots: `len(file) / w`. */
  function WholeSlots(file: seq<byte>, w: nat): (r: nat)
    requires w > 0
    ensures r * w <= |file| < r * w + w
  {
    |file| / w
  }

  /** A positive multiple of `w` is at least `w`. */
  lemma MulAtLeast(d: int, w: nat)
    requires d >= 1
    ensures d * w >= w
  {
    assert d * w == w + (d - 1) * w;
  }

  /** `k * w` is a multiple of `w` whose quotient is `k`. */
  lemma MulDiv(k: int, w: nat)
    requires w > 0
    ensures (k * w) / w == k
    ensures (k * w) % w == 0
  {
    var q, m := (k * w) / w, (k * w) % w;
    assert k * w == q * w + m && 0 <= m < w;
    assert (k - q) * w == m;
    if k - q >= 1 {
      MulAtLeast(k - q, w);
    } else if q - k >= 1 {
      MulAtLeast(q - k, w);
    }
  }

  /** Slot `a` ends at or before slot `b` starts when `a < b`. */
  lemma SlotsApart(a: int, b: int, w: nat)
    requires a < b
    ensures a * w + w <= b * w
  {
    assert b * w - a * w == (b - a) * w;
    assert (b - a) * w == w + (b - a - 1) * w;
  }

  /** `_get_pos_from_pk`: record `pk` starts at byte `pk * w`. */
  function PosFromPk(w: nat, pk: int): (pos: int)
    ensures w > 0 ==> pos % w == 0 && pos / w == pk
  {
    if w > 0 then MulDiv(pk, w); pk * w else pk * w
  }

  /** `_get_pk_from_pos`: Python 2 integer `/`, which floors; the divisor is
      positive, so Dafny's Euclidean `/` agrees even for a negative `pos`. */
  function PkFromPos(w: nat, pos: int): (pk: int)
    requires w > 0
    ensures pk * w <= pos < pk * w + w
  {
    pos / w
  }

  /** The two conversions: a pk survives the round trip through its
      position, and every byte of slot `pk` maps back to `pk`. */
  lemma PkPosRoundTrip(w: nat, pk: int, i: int)
    requires w > 0 && 0 <= i < w
    ensures PkFromPos(w, PosFromPk(w, pk)) == pk
    ensures PkFromPos(w, PosFromPk(w, pk) + i) == pk
  {
    MulDiv(pk, w);
    var q := PkFromPos(w, PosFromPk(w, pk) + i);
    if q > pk { SlotsApart(pk, q, w); }
    if q < pk { SlotsApart(q, pk, w); }
  }

  /** Appending one full slot to a file of whole slots: the file held
      `WholeSlots` slots exactly, the last byte written lies in the new
      slot, which is counted and holds the data. */
  lemma AppendFullSlot(file: seq<byte>, w: nat, data: seq<byte>)
    requires w > 0 && |file| % w == 0 && |data| == w
    ensures |file| == WholeSlots(file, w) * w
    ensures PkFromPos(w, |file| + |data| - 1) == WholeSlots(file, w)
    ensures WholeSlots(file + data, w) == WholeSlots(file, w) + 1
    ensures Slot(file + data, w, WholeSlots(file, w)) == data
  {
    var n := WholeSlots(file, w);
    assert |file| == n * w;
    PkPosRoundTrip(w, n, w - 1);
    assert |file + data| == (n + 1) * w;
    MulDiv(n + 1, w);
    assert (file + data)[n * w .. n * w + w] == data;
  }

  /** The position just past slot `k` converts to record number `k + 1`. */
  lemma PkAfterSlot(w: nat, k: int)
    requires w > 0
    ensures PkFromPos(w, k * w + w) == k + 1
  {
    assert (k + 1) * w == k * w + w;
    PkPosRoundTrip(w, k + 1, 0);
  }

  /** A slot below the whole-slot count lies entirely inside the file. */
  lemma SlotInFile(file: seq<byte>, w: nat, k: nat)
    requires w > 0
    requires k < WholeSlots(file, w)
    ensures k * w + w <= |file|
    ensures Slot(file, w, k) == file[k * w .. k * w + w]
  {
    SlotsApart(k, WholeSlots(file, w), w);
  }

  /** Two files of equal length that agree outside slot `k` have the same
      slots everywhere except `k`. */
  lemma SlotsOutside(f: seq<byte>, g: seq<byte>, w: nat, k: nat, j: nat)
    requires w > 0 && |f| == |g| && j != k
    requires forall i :: 0 <= i < |f| && !(k * w <= i < k * w + w) ==> f[i] == g[i]
    ensures Slot(f, w, j) == Slot(g, w, j)
  {
    if j < k { SlotsApart(j, k, w); } else { SlotsApart(k, j, w); }
    var a, b := Slot(f, w, j), Slot(g, w, j);
    assert |a| == |b|;
    forall i | 0 <= i < |a|
      ensures a[i] == b[i]
    {
      assert f[j * w + i] == g[j * w + i];
    }
  }

  /** Writing at most `w` bytes into slot `k` of a file that holds the
      whole slot changes nothing outside the written bytes: the length and
      every other slot stay the same. */
  lemma WriteSlotFrame(file: seq<byte>, w: nat, k: nat, data: seq<byte>)
    requires w > 0 && |data| <= w && k * w + w <= |file|
    ensures |WriteAt(file, k * w, data)| == |file|
    ensures forall j: nat :: j != k ==> Slot(WriteAt(file, k * w, data), w, j) == Slot(file, w, j)
  {
    var g := WriteAt(file, k * w, data);
    forall j: nat | j != k
      ensures Slot(g, w, j) == Slot(file, w, j)
    {
      SlotsOutside(g, file, w, k, j);
    }
  }

  /** Writing exactly `w` bytes into slot `k` makes slot `k` read them back. */
  lemma WriteSlotReadBack(file: seq<byte>, w: nat, k: nat, data: seq<byte>)
    requires w > 0 && |data| == w && k * w + w <= |file|
    ensures Slot(WriteAt(file, k * w, data), w, k) == data
  {
    var g := WriteAt(file, k * w, data);
    assert |Slot(g, w, k)| == w;
    forall i | 0 <= i < w
      ensures Slot(g, w, k)[i] == data[i]
    {
    }
  }

  /** The slots from `k` upward whose chunk is not a tombstone, ascending.
      A short trailing chunk is never `w` NUL bytes, so it counts as live. */
  function LiveSlotsFrom(file: seq<byte>, w: nat, k: nat): seq<nat>
    requires w > 0
    decreases |file| - k * w
  {
    if k * w >= |file| then []
    else
      assert (k + 1) * w == k * w + w;
      (if IsDeletedRow(w, Slot(file, w, k)) then [] else [k]) + LiveSlotsFrom(file, w, k + 1)
  }

  /** Membership in the live-slot scan: exactly the non-tombstone chunks
      from `k` onwards. */
  lemma {:induction false} LiveSlotsMember(file: seq<byte>, w: nat, k: nat, j: nat)
    requires w > 0
    ensures j in LiveSlotsFrom(file, w, k) <==>
              k <= j && j * w < |file| && !IsDeletedRow(w, Slot(file, w, j))
    decreases |file| - k * w
  {
    if k * w < |file| {
      assert (k + 1) * w == k * w + w;
      LiveSlotsMember(file, w, k + 1, j);
      if j > k { SlotsApart(k, j, w); }
      if j < k && j * w < |file| { SlotsApart(j, k, w); }
    } else if k <= j {
      if k < j { SlotsApart(k, j, w); }
    }
  }

  /** The live-slot scan is strictly ascending and starts at `k` or later. */
  lemma {:induction false} LiveSlotsAscending(file: seq<byte>, w: nat, k: nat)
    requires w > 0
    ensures forall i :: 0 <= i < |LiveSlotsFrom(file, w, k)| ==> k <= LiveSlotsFrom(file, w, k)[i]
    ensures forall i, j :: 0 <= i < j < |LiveSlotsFrom(file, w, k)| ==>
              LiveSlotsFrom(file, w, k)[i] < LiveSlotsFrom(file, w, k)[j]
    decreases |file| - k * w
  {
    if k * w < |file| {
      assert (k + 1) * w == k * w + w;
      LiveSlotsAscending(file, w, k + 1);
    }
  }

  /** Replacing slot `k` of a file that holds it (and nothing else) moves
      the live count by the change in slot `k`'s liveness alone. */
  lemma {:induction false} LiveCountAfterSlotWrite(f: seq<byte>, g: seq<byte>, w: nat, k: nat, m: nat)
    requires w > 0 && |f| == |g| && k * w + w <= |f|
    requires forall j: nat :: j != k ==> Slot(f, w, j) == Slot(g, w, j)
    ensures |LiveSlotsFrom(g, w, m)| + (if m <= k && !IsDeletedRow(w, Slot(f, w, k)) then 1 else 0)
         == |LiveSlotsFrom(f, w, m)| + (if m <= k && !IsDeletedRow(w, Slot(g, w, k)) then 1 else 0)
    decreases |f| - m * w
  {
    if m * w < |f| {
      assert (m + 1) * w == m * w + w;
      LiveCountAfterSlotWrite(f, g, w, k, m + 1);
    } else if m <= k {
      if m < k { SlotsApart(m, k, w); }
    }
  }
}

=== FILE: schema.dfy ===
/** Field descriptors of a model: the static table `(name, kind,
    max_length)` that replaces the runtime field classes, and the row
    layout those widths determine. */
module Schema {
  import opened Common

  datatype FieldKind = CharField | IntegerField

  datatype FieldDesc = FieldDesc(name: string, kind: FieldKind, maxLength: nat)

  /** `MAX_INT = 2 ** 9`. */
  const MaxInt: int := 512

  /** ASCII code of a decimal digit. */
  function DigitByte(d: int): (b: byte)
    requires 0 <= d < 10
    ensures 48 <= b as int <= 57
  {
    (48 + d) as byte
  }

  /** Decimal digits of a natural number, most significant first. */
  function NatDigits(n: nat): (r: seq<byte>)
    ensures |r| >= 1
    ensures forall i :: 0 <= i < |r| ==> 48 <= r[i] as int <= 57
    decreases n
  {
    if n < 10 then [DigitByte(n)] else NatDigits(n / 10) + [DigitByte(n % 10)]
  }

  /** `str(n)` for an integer: a `-` sign before the digits of `|n|`. */
  function DecimalString(n: int): (r: seq<byte>)
    ensures |r| >= 1
    ensures (r[0] == 45) <==> n < 0
    ensures forall i :: (if n < 0 then 1 else 0) <= i < |r| ==> 48 <= r[i] as int <= 57
  {
    if n < 0 then [45 as byte] + NatDigits(-n) else NatDigits(n)
  }

  /** The number a string of decimal digits spells, most significant
      first: the reading `int()` gives such a string. */
  function DigitsValue(s: seq<byte>): (v: int)
    decreases |s|
  {
    if |s| == 0 then 0 else DigitsValue(s[..|s| - 1]) * 10 + (s[|s| - 1] as int - 48)
  }

  /** The digits of `n` spell `n`, and only `0` itself starts with the
      digit 0. */
  lemma {:induction false} NatDigitsValue(n: nat)
    ensures DigitsValue(NatDigits(n)) == n
    ensures NatDigits(n)[0] == 48 <==> n == 0
    decreases n
  {
    if n >= 10 {
      var init := NatDigits(n / 10);
      NatDigitsValue(n / 10);
      assert NatDigits(n) == init + [DigitByte(n % 10)];
      assert (init + [DigitByte(n % 10)])[..|init|] == init;
    }
  }

  /** `str(n)` spells `n`: a non-negative `n` is its digits with no leading
      zero, a negative one is `-` followed by the digits of `-n`. */
  lemma DecimalStringValue(n: int)
    ensures n >= 0 ==> DigitsValue(DecimalString(n)) == n && (DecimalString(n)[0] == 48 <==> n == 0)
    ensures n < 0 ==> DecimalString(n) == [45] + NatDigits(-n)
                      && DigitsValue(DecimalString(n)[1..]) == -n && DecimalString(n)[1] != 48
  {
    if n >= 0 {
      NatDigitsValue(n);
    } else {
      NatDigitsValue(-n);
      assert DecimalString(n)[1..] == NatDigits(-n);
    }
  }

  /** `IntegerField.max_length = len(str(MAX_INT))`. */
  const IntegerMaxLength: nat := |DecimalString(MaxInt)|

  /** The integer field is three bytes wide, enough for `0 .. 999`. */
  lemma IntegerMaxLengthIsThree()
    ensures IntegerMaxLength == 3
    ensures forall n :: 0 <= n < 1000 ==> |DecimalString(n)| <= IntegerMaxLength
  {
    assert DecimalString(MaxInt) == NatDigits(512);
    assert NatDigits(512) == NatDigits(51) + [DigitByte(2)];
    assert NatDigits(51) == NatDigits(5) + [DigitByte(1)];
    forall n | 0 <= n < 1000
      ensures |DecimalString(n)| <= 3
    {
      if n >= 10 {
        assert NatDigits(n) == NatDigits(n / 10) + [DigitByte(n % 10)];
        if n / 10 >= 10 {
          assert NatDigits(n / 10) == NatDigits(n / 100) + [DigitByte((n / 10) % 10)];
        }
      }
    }
  }

  /** `Model.row_width` and `calc_row_width`: the sum of the fields'
      `max_length`. */
  function RowWidth(fields: seq<FieldDesc>): (w: nat)
  {
    if |fields| == 0 then 0 else RowWidth(fields[..|fields| - 1]) + fields[|fields| - 1].maxLength
  }

  /** Byte offset at which field `i` starts: the widths of the fields before it. */
  function Offset(fields: seq<FieldDesc>, i: nat): (r: nat)
    requires i <= |fields|
  {
    RowWidth(fields[..i])
  }

  /** Each field occupies `[Offset(i), Offset(i) + max_length)`: the
      offsets grow by exactly one field width, and the last field ends at
      the row width. */
  lemma OffsetStep(fields: seq<FieldDesc>, i: nat)
    requires i < |fields|
    ensures Offset(fields, i + 1) == Offset(fields, i) + fields[i].maxLength
    ensures Offset(fields, i + 1) <= RowWidth(fields)
    ensures Offset(fields, |fields|) == RowWidth(fields)
  {
    assert fields[..i + 1][..i] == fields[..i];
    assert fields[..|fields|] == fields;
    OffsetBelowWidth(fields, i + 1);
  }

  lemma {:induction false} OffsetBelowWidth(fields: seq<FieldDesc>, i: nat)
    requires i <= |fields|
    ensures Offset(fields, i) <= RowWidth(fields)
    decreases |fields|
  {
    if i < |fields| {
      var init := fields[..|fields| - 1];
      assert fields[..i] == init[..i];
      OffsetBelowWidth(init, i);
    } else {
      assert fields[..i] == fields;
    }
  }

  /** Every field fits inside the row: no field is wider than the sum of
      all widths. */
  lemma {:induction false} RowWidthCoversFields(fields: seq<FieldDesc>)
    ensures forall j :: 0 <= j < |fields| ==> fields[j].maxLength <= RowWidth(fields)
  {
    forall j | 0 <= j < |fields|
      ensures fields[j].maxLength <= RowWidth(fields)
    {
      OffsetStep(fields, j);
    }
  }

  /** Concatenation in order, as the encoders' `s += ...` loops build it. */
  function Concat(xs: seq<seq<byte>>): (r: seq<byte>) {
    if |xs| == 0 then [] else Concat(xs[..|xs| - 1]) + xs[|xs| - 1]
  }

  /** The decoders' loop from field `i` on, `pos` being the running offset:
      field `i` gets `row[pos:pos + max_length]`, then `pos` moves on by
      that width. */
  function PiecesFrom(fields: seq<FieldDesc>, row: seq<byte>, i: nat, pos: nat): (r: seq<seq<byte>>)
    requires i <= |fields| && pos == Offset(fields, i)
    ensures |r| == |fields| - i
    decreases |fields| - i
  {
    if i == |fields| then []
    else
      OffsetStep(fields, i);
      [PySlice(row, pos, pos + fields[i].maxLength)] + PiecesFrom(fields, row, i + 1, pos + fields[i].maxLength)
  }

  /** The decoders' slicing of a row into consecutive `max_length`-wide
      pieces, in field order. */
  function Pieces(fields: seq<FieldDesc>, row: seq<byte>): (r: seq<seq<byte>>)
    ensures |r| == |fields|
  {
    PiecesFrom(fields, row, 0, 0)
  }

  lemma {:induction false} PiecesFromAt(fields: seq<FieldDesc>, row: seq<byte>, i: nat, pos: nat, j: nat)
    requires i <= j < |fields| && pos == Offset(fields, i)
    ensures PiecesFrom(fields, row, i, pos)[j - i]
         == PySlice(row, Offset(fields, j), Offset(fields, j) + fields[j].maxLength)
    decreases j - i
  {
    OffsetStep(fields, i);
    var next := pos + fields[i].maxLength;
    var rest := PiecesFrom(fields, row, i + 1, next);
    assert PiecesFrom(fields, row, i, pos) == [PySlice(row, pos, next)] + rest;
    if i < j {
      PiecesFromAt(fields, row, i + 1, next, j);
      assert PiecesFrom(fields, row, i, pos)[j - i] == rest[j - i - 1];
    }
  }

  /** Piece `j` of a row is the row's slice `[Offset(j), Offset(j) + max_length_j)`,
      clamped like a Python slice. */
  lemma PiecesSpec(fields: seq<FieldDesc>, row: seq<byte>)
    ensures forall j :: 0 <= j < |fields| ==>
              Pieces(fields, row)[j] == PySlice(row, Offset(fields, j), Offset(fields, j) + fields[j].maxLength)
  {
    forall j | 0 <= j < |fields|
      ensures Pieces(fields, row)[j] == PySlice(row, Offset(fields, j), Offset(fields, j) + fields[j].maxLength)
    {
      PiecesFromAt(fields, row, 0, 0, j);
    }
  }

  /** A concatenation's prefix up to piece `j` is the concatenation of the
      first `j` pieces. */
  lemma {:induction false} ConcatPrefix(xs: seq<seq<byte>>, j: nat)
    requires j <= |xs|
    ensures |Concat(xs[..j])| <= |Concat(xs)|
    ensures Concat(xs)[..|Concat(xs[..j])|] == Concat(xs[..j])
    decreases |xs|
  {
    if j < |xs| {
      var init := xs[..|xs| - 1];
      assert init[..j] == xs[..j];
      ConcatPrefix(init, j);
    } else {
      assert xs[..j] == xs;
    }
  }

  /** Pieces that each have their field's width concatenate to a string
      whose `j`-th prefix is exactly `Offset(j)` long. */
  lemma {:induction false} ConcatWidths(fields: seq<FieldDesc>, xs: seq<seq<byte>>, j: nat)
    requires |xs| == |fields| && j <= |fields|
    requires forall k :: 0 <= k < |fields| ==> |xs[k]| == fields[k].maxLength
    ensures |Concat(xs[..j])| == Offset(fields, j)
    decreases j
  {
    if j > 0 {
      ConcatWidths(fields, xs, j - 1);
      assert xs[..j][..j - 1] == xs[..j - 1];
      assert fields[..j][..j - 1] == fields[..j - 1];
    }
  }

  /** Decoding then re-concatenating a full-width row gives the row back,
      and every piece has exactly its field's width. */
  lemma ConcatPieces(fields: seq<FieldDesc>, row: seq<byte>)
    requires |row| == RowWidth(fields)
    ensures |Pieces(fields, row)| == |fields|
    ensures forall j :: 0 <= j < |fields| ==> |Pieces(fields, row)[j]| == fields[j].maxLength
    ensures Concat(Pieces(fields, row)) == row
  {
    var ps := Pieces(fields, row);
    forall j | 0 <= j < |fields|
      ensures |ps[j]| == fields[j].maxLength
    {
      OffsetStep(fields, j);
      PiecesFromAt(fields, row, 0, 0, j);
    }
    ConcatPiecesPrefix(fields, row, |fields|);
    assert fields[..|fields|] == fields;
    assert ps[..|fields|] == ps;
  }

  /** In a full-width row, piece `j` is exactly the bytes between its
      offset and the next. */
  lemma PieceInRow(fields: seq<FieldDesc>, row: seq<byte>, j: nat)
    requires |row| == RowWidth(fields) && j < |fields|
    ensures Offset(fields, j) <= Offset(fields, j + 1) <= |row|
    ensures Pieces(fields, row)[j] == row[Offset(fields, j)..Offset(fields, j + 1)]
  {
    OffsetStep(fields, j);
    PiecesFromAt(fields, row, 0, 0, j);
  }

  lemma ConcatSnoc(xs: seq<seq<byte>>, j: nat)
    requires 0 < j <= |xs|
    ensures Concat(xs[..j]) == Concat(xs[..j - 1]) + xs[j - 1]
  {
    assert xs[..j][..j - 1] == xs[..j - 1];
  }

  lemma {:induction false} ConcatPiecesPrefix(fields: seq<FieldDesc>, row: seq<byte>, j: nat)
    requires |row| == RowWidth(fields) && j <= |fields|
    ensures Offset(fields, j) <= |row|
    ensures Concat(Pieces(fields, row)[..j]) == row[..Offset(fields, j)]
    decreases j
  {
    OffsetBelowWidth(fields, j);
    if j > 0 {
      var a, b := Offset(fields, j - 1), Offset(fields, j);
      PieceInRow(fields, row, j - 1);
      ConcatPiecesPrefix(fields, row, j - 1);
      ConcatSnoc(Pieces(fields, row), j);
      assert row[..b] == row[..a] + row[a..b];
    }
  }

  /** Slicing a concatenation of full-width pieces gives the pieces back. */
  lemma PiecesConcat(fields: seq<FieldDesc>, xs: seq<seq<byte>>)
    requires |xs| == |fields|
    requires forall k :: 0 <= k < |fields| ==> |xs[k]| == fields[k].maxLength
    ensures Pieces(fields, Concat(xs)) == xs
  {
    var ps := Pieces(fields, Concat(xs));
    PiecesSpec(fields, Concat(xs));
    forall j | 0 <= j < |fields|
      ensures ps[j] == xs[j]
    {
      PieceOfConcat(fields, xs, j);
    }
  }

  lemma PieceOfConcat(fields: seq<FieldDesc>, xs: seq<seq<byte>>, j: nat)
    requires |xs| == |fields| && j < |fields|
    requires forall k :: 0 <= k < |fields| ==> |xs[k]| == fields[k].maxLength
    ensures PySlice(Concat(xs), Offset(fields, j), Offset(fields, j) + fields[j].maxLength) == xs[j]
  {
    var s := Concat(xs);
    var a, b := Offset(fields, j), Offset(fields, j + 1);
    OffsetStep(fields, j);
    ConcatWidths(fields, xs, j);
    ConcatWidths(fields, xs, j + 1);
    ConcatPrefix(xs, j + 1);
    var p := Concat(xs[..j + 1]);
    assert xs[..j + 1][..j] == xs[..j];
    assert p == Concat(xs[..j]) + xs[j];
    assert |p| == b <= |s|;
    assert s[..b] == p;
    assert s[a..b] == p[a..];
  }

  /** Pieces at least as wide as their fields concatenate to at least the
      row width, and to exactly the row width iff no piece is wider than
      its field. */
  lemma {:induction false} ConcatAtLeastWidth(fields: seq<FieldDesc>, xs: seq<seq<byte>>)
    requires |xs| == |fields|
    requires forall k :: 0 <= k < |fields| ==> |xs[k]| >= fields[k].maxLength
    ensures |Concat(xs)| >= RowWidth(fields)
    ensures |Concat(xs)| == RowWidth(fields) <==>
              forall k :: 0 <= k < |fields| ==> |xs[k]| == fields[k].maxLength
    decreases |fields|
  {
    if |fields| > 0 {
      var n := |fields| - 1;
      ConcatAtLeastWidth(fields[..n], xs[..n]);
    }
  }
}

=== FILE: storage.dfy ===
/** `FixedLengthRecordStorage`: the older store, which encodes model
    instances itself. A row is the fields' encodings NUL-padded to their
    `max_length` and concatenated in schema order; the file is cut into
    `RowWidth(fields)`-wide slots, and a slot of all NUL bytes is deleted. */
module Storage {
  import opened Common
  import opened RecordFile
  import opened Schema

  /** A model instance as this store sees it: its pk (None until it is
      inserted) and, per schema field in order, what that field's
      `to_db()` returns. The field classes themselves are not part of this
      model; a field built from a decoded slice is taken to return that
      slice from `to_db()`. */
  datatype Instance = Instance(pk: Option<int>, values: seq<Option<seq<byte>>>)

  datatype Store = Store(fields: seq<FieldDesc>, file: seq<byte>) {
    /** A schema of total width 0 would make every pk/position conversion
        divide by zero. */
    predicate Valid() {
      RowWidth(fields) > 0
    }
  }

  /** `calc_row_width`: the loop summing the fields' `max_length`. */
  method CalcRowWidth(fields: seq<FieldDesc>) returns (w: nat)
    ensures w == RowWidth(fields)
    ensures forall j :: 0 <= j < |fields| ==> fields[j].maxLength <= w
  {
    w := 0;
    var i := 0;
    while i < |fields|
      invariant i <= |fields|
      invariant w == Offset(fields, i)
    {
      OffsetStep(fields, i);
      w := w + fields[i].maxLength;
      i := i + 1;
    }
    assert fields[..|fields|] == fields;
    forall j | 0 <= j < |fields|
      ensures fields[j].maxLength <= w
    {
      OffsetStep(fields, j);
    }
  }

  /** What `to_db()` returned, with None read as the empty string. */
  function Text(v: Option<seq<byte>>): (r: seq<byte>) {
    if v.None? then [] else v.value
  }

  /** `_normalize_field`: None becomes `''`, then the value is NUL-padded to
      `max_length`; a longer value is kept whole. */
  function NormalizeField(v: Option<seq<byte>>, maxLength: nat): (r: seq<byte>)
    ensures |r| == Max(|Text(v)|, maxLength)
    ensures r[..|Text(v)|] == Text(v) && AllNul(r[|Text(v)|..])
    ensures v.None? ==> r == Nuls(maxLength)
  {
    LJust(Text(v), maxLength)
  }

  /** A value fits its field when its text is no longer than `max_length`. */
  predicate Fits(v: Option<seq<byte>>, maxLength: nat) {
    |Text(v)| <= maxLength
  }

  /** The normalised fields, in schema order: each holds its value's text
      followed by NUL bytes up to `max_length`, and is never shorter than
      the text. */
  function Normalized(fields: seq<FieldDesc>, values: seq<Option<seq<byte>>>): (r: seq<seq<byte>>)
    requires |values| == |fields|
    ensures |r| == |fields|
    ensures forall j :: 0 <= j < |fields| ==>
              && |r[j]| == Max(|Text(values[j])|, fields[j].maxLength)
              && r[j][..|Text(values[j])|] == Text(values[j])
              && AllNul(r[j][|Text(values[j])|..])
  {
    seq(|fields|, j requires 0 <= j < |fields| => NormalizeField(values[j], fields[j].maxLength))
  }

  /** `to_db`: the normalised fields concatenated. The row is at least the
      row width, and exactly the row width iff every value fits its field. */
  function ToDb(fields: seq<FieldDesc>, values: seq<Option<seq<byte>>>): (row: seq<byte>)
    requires |values| == |fields|
    ensures |row| >= RowWidth(fields)
    ensures |row| == RowWidth(fields) <==> forall j :: 0 <= j < |fields| ==> Fits(values[j], fields[j].maxLength)
  {
    var xs := Normalized(fields, values);
    ConcatAtLeastWidth(fields, xs);
    Concat(xs)
  }

  /** `from_db`: field `j` gets the row's slice starting at the sum of the
      earlier fields' widths and `max_length_j` long (shorter if the row
      runs out). */
  function FromDb(fields: seq<FieldDesc>, row: seq<byte>): (values: seq<Option<seq<byte>>>)
    ensures |values| == |fields|
    ensures forall j :: 0 <= j < |fields| ==>
              values[j] == Some(PySlice(row, Offset(fields, j), Offset(fields, j) + fields[j].maxLength))
  {
    var ps := Pieces(fields, row);
    PiecesSpec(fields, row);
    seq(|fields|, j requires 0 <= j < |fields| => Some(ps[j]))
  }

  /** Decoding a full-width row and encoding the result gives the row back. */
  lemma ToDbFromDb(fields: seq<FieldDesc>, row: seq<byte>)
    requires |row| == RowWidth(fields)
    ensures ToDb(fields, FromDb(fields, row)) == row
  {
    var values := FromDb(fields, row);
    var ps := Pieces(fields, row);
    ConcatPieces(fields, row);
    assert Normalized(fields, values) == ps;
  }

  /** Encoding values that fit and decoding the row gives each value back,
      NUL-padded to its field's width. */
  lemma FromDbToDb(fields: seq<FieldDesc>, values: seq<Option<seq<byte>>>)
    requires |values| == |fields|
    requires forall j :: 0 <= j < |fields| ==> Fits(values[j], fields[j].maxLength)
    ensures forall j :: 0 <= j < |fields| ==>
              FromDb(fields, ToDb(fields, values))[j] == Some(LJust(Text(values[j]), fields[j].maxLength))
  {
    var xs := Normalized(fields, values);
    PiecesConcat(fields, xs);
    PiecesSpec(fields, Concat(xs));
  }

  function Width(s: Store): (w: nat) {
    RowWidth(s.fields)
  }

  /** `total_count`: `len(file) / row_width`, deleted slots included. */
  function TotalCount(s: Store): (n: nat)
    requires s.Valid()
    ensures n * Width(s) <= |s.file| < n * Width(s) + Width(s)
  {
    WholeSlots(s.file, Width(s))
  }

  /** `insert`: encodes the instance, rejects a row wider than the row
      width before writing, otherwise appends it unpadded and sets the
      instance's pk to the slot holding the last byte written. */
  function Insert(s: Store, inst: Instance): (r: Result<(Store, Instance)>)
    requires s.Valid() && |inst.values| == |s.fields|
    ensures r.Err? <==> |ToDb(s.fields, inst.values)| > Width(s)
    ensures r.Err? ==> r.error == IntegrityError
    ensures r.Ok? ==> r.value.0 == s.(file := s.file + ToDb(s.fields, inst.values))
    ensures r.Ok? ==> r.value.1.values == inst.values && r.value.1.pk.Some?
    ensures r.Ok? ==> var pk := r.value.1.pk.value;
              pk * Width(s) <= |r.value.0.file| - 1 < pk * Width(s) + Width(s)
  {
    var row := ToDb(s.fields, inst.values);
    if |row| > Width(s) then Err(IntegrityError)
    else
      var f := WriteAt(s.file, |s.file|, row);
      WriteAtEndAppends(s.file, row);
      Ok((s.(file := f), inst.(pk := Some(PkFromPos(Width(s), |f| - 1)))))
  }

  /** `update`: the pk check runs before the size check. A pk of None
      passes the pk check (in Python 2 `None >= n` is false) and then
      fails computing its offset; a negative pk fails in `seek`. On
      success only the row's bytes at `pk * w` change. */
  function Update(s: Store, inst: Instance): (r: Result<Store>)
    requires s.Valid() && |inst.values| == |s.fields|
    ensures inst.pk.Some? && inst.pk.value >= TotalCount(s) ==> r == Err(ObjectDoesNotExist)
    ensures var row := ToDb(s.fields, inst.values);
            (inst.pk.None? || inst.pk.value < TotalCount(s)) && |row| > Width(s) ==> r == Err(IntegrityError)
    ensures inst.pk.None? && |ToDb(s.fields, inst.values)| <= Width(s) ==> r == Err(TypeError)
    ensures inst.pk.Some? && inst.pk.value < 0 && |ToDb(s.fields, inst.values)| <= Width(s) ==> r == Err(InvalidSeek)
    ensures r.Ok? <==> inst.pk.Some? && 0 <= inst.pk.value < TotalCount(s)
                       && |ToDb(s.fields, inst.values)| <= Width(s)
    ensures r.Ok? ==> r.value.fields == s.fields && |r.value.file| == |s.file|
    ensures r.Ok? ==> var pos, row := inst.pk.value * Width(s), ToDb(s.fields, inst.values);
              forall i :: 0 <= i < |s.file| ==>
                r.value.file[i] == if pos <= i < pos + |row| then row[i - pos] else s.file[i]
  {
    var row := ToDb(s.fields, inst.values);
    if inst.pk.Some? && inst.pk.value >= TotalCount(s) then Err(ObjectDoesNotExist)
    else if |row| > Width(s) then Err(IntegrityError)
    else if inst.pk.None? then Err(TypeError)
    else if inst.pk.value < 0 then Err(InvalidSeek)
    else
      var pk := inst.pk.value;
      SlotInFile(s.file, Width(s), pk);
      WriteInPlace(s.file, PosFromPk(Width(s), pk), row);
      Ok(s.(file := WriteAt(s.file, PosFromPk(Width(s), pk), row)))
  }

  /** `get`: the pk check, `seek`, then the tombstone check; the instance
      is decoded from slot `pk` and its pk is left unset. */
  function Get(s: Store, pk: int): (r: Result<Instance>)
    requires s.Valid()
    ensures pk >= TotalCount(s) ==> r == Err(ObjectDoesNotExist)
    ensures pk < 0 ==> r == Err(InvalidSeek)
    ensures r.Ok? <==> 0 <= pk < TotalCount(s) && !IsDeletedRow(Width(s), Slot(s.file, Width(s), pk))
    ensures r.Err? && 0 <= pk ==> r == Err(ObjectDoesNotExist)
    ensures r.Ok? ==> r.value == Instance(None, FromDb(s.fields, Slot(s.file, Width(s), pk)))
  {
    if pk >= TotalCount(s) then Err(ObjectDoesNotExist)
    else if pk < 0 then Err(InvalidSeek)
    else
      SlotInFile(s.file, Width(s), pk);
      var row := ReadAt(s.file, PosFromPk(Width(s), pk), Width(s));
      if IsDeletedRow(Width(s), row) then Err(ObjectDoesNotExist)
      else Ok(Instance(None, FromDb(s.fields, row)))
  }

  /** `all` from slot `k` on: each chunk read is skipped if it is a
      tombstone; otherwise it is decoded and given the pk computed from
      the position AFTER `pos += row_width`. */
  function AllFrom(s: Store, k: nat): (r: seq<Instance>)
    requires s.Valid()
    decreases |s.file| - k * Width(s)
  {
    var w := Width(s);
    if k * w >= |s.file| then []
    else
      assert (k + 1) * w == k * w + w;
      var row := ReadAt(s.file, k * w, w);
      var pos := k * w + w;
      PkAfterSlot(w, k);
      (if IsDeletedRow(w, row) then [] else [Instance(Some(PkFromPos(w, pos)), FromDb(s.fields, row))])
        + AllFrom(s, k + 1)
  }

  /** `all`: the entry of every live slot, in ascending slot order. */
  function All(s: Store): (r: seq<Instance>)
    requires s.Valid()
    ensures r == Entries(s, LiveSlotsFrom(s.file, Width(s), 0))
  {
    AllFromSpec(s, 0);
    AllFrom(s, 0)
  }

  /** What `all` yields for live slot `slot`: the slot decoded, carrying
      the record number one past the slot. */
  function Entry(s: Store, slot: nat): (r: Instance)
    requires s.Valid()
  {
    Instance(Some(slot + 1), FromDb(s.fields, Slot(s.file, Width(s), slot)))
  }

  /** `Entry` of each slot, in order. */
  function Entries(s: Store, slots: seq<nat>): (r: seq<Instance>)
    requires s.Valid()
    ensures |r| == |slots|
  {
    if slots == [] then [] else [Entry(s, slots[0])] + Entries(s, slots[1..])
  }

  lemma {:induction false} EntriesAt(s: Store, slots: seq<nat>, i: nat)
    requires s.Valid() && i < |slots|
    ensures Entries(s, slots)[i] == Entry(s, slots[i])
    decreases i
  {
    if i > 0 {
      EntriesAt(s, slots[1..], i - 1);
    }
  }

  /** One step of `all`: the entry of slot `k` unless it is a tombstone,
      then the rest. */
  lemma AllFromUnfold(s: Store, k: nat)
    requires s.Valid() && k * Width(s) < |s.file|
    ensures AllFrom(s, k)
         == (if IsDeletedRow(Width(s), Slot(s.file, Width(s), k)) then [] else [Entry(s, k)]) + AllFrom(s, k + 1)
  {
    PkAfterSlot(Width(s), k);
  }

  /** `all` from slot `k` is the entry of every live slot from `k` on, in
      ascending slot order. */
  lemma {:induction false} AllFromSpec(s: Store, k: nat)
    requires s.Valid()
    ensures AllFrom(s, k) == Entries(s, LiveSlotsFrom(s.file, Width(s), k))
    decreases |s.file| - k * Width(s)
  {
    var w := Width(s);
    if k * w < |s.file| {
      assert (k + 1) * w == k * w + w;
      AllFromUnfold(s, k);
      AllFromSpec(s, k + 1);
      var restLive := LiveSlotsFrom(s.file, w, k + 1);
      if IsDeletedRow(w, Slot(s.file, w, k)) {
        assert LiveSlotsFrom(s.file, w, k) == restLive;
      } else {
        assert LiveSlotsFrom(s.file, w, k) == [k] + restLive;
        assert ([k] + restLive)[1..] == restLive;
      }
    }
  }

  /** The pk that `all` attaches is off by one: the instance it yields for
      live slot `k` carries pk `k + 1`, while its values are slot `k`
      decoded. */
  lemma AllPkOffByOne(s: Store)
    requires s.Valid()
    ensures |All(s)| == |LiveSlotsFrom(s.file, Width(s), 0)|
    ensures forall i :: 0 <= i < |All(s)| ==>
              && All(s)[i].pk == Some(LiveSlotsFrom(s.file, Width(s), 0)[i] + 1)
              && All(s)[i].values == FromDb(s.fields, Slot(s.file, Width(s), All(s)[i].pk.value - 1))
  {
    var live := LiveSlotsFrom(s.file, Width(s), 0);
    var all := All(s);
    AllFromSpec(s, 0);
    assert all == Entries(s, live);
    forall i | 0 <= i < |all|
      ensures all[i] == Entry(s, live[i])
    {
      EntriesAt(s, live, i);
    }
  }

  /** `all` yields records in ascending pk order. */
  lemma AllPksAscending(s: Store)
    requires s.Valid()
    ensures forall i :: 0 <= i < |All(s)| ==> All(s)[i].pk.Some?
    ensures forall i, j :: 0 <= i < j < |All(s)| ==> All(s)[i].pk.value < All(s)[j].pk.value
  {
    var live := LiveSlotsFrom(s.file, Width(s), 0);
    var all := All(s);
    AllPkOffByOne(s);
    LiveSlotsAscending(s.file, Width(s), 0);
    forall i, j | 0 <= i < j < |all|
      ensures all[i].pk.value < all[j].pk.value
    {
      assert all[i].pk.value == live[i] + 1 && all[j].pk.value == live[j] + 1;
      assert live[i] < live[j];
    }
  }

  /** `count`: reads chunk after chunk until a read comes back empty and
      counts those that are not tombstones (a short trailing chunk counts). */
  method Count(s: Store) returns (c: nat)
    requires s.Valid()
    ensures c == |LiveSlotsFrom(s.file, Width(s), 0)|
  {
    var w := Width(s);
    c := 0;
    var k: nat := 0;
    while true
      invariant c + |LiveSlotsFrom(s.file, w, k)| == |LiveSlotsFrom(s.file, w, 0)|
      decreases |s.file| + w - k * w
    {
      var row := ReadAt(s.file, k * w, w);
      if row == [] {
        break;
      }
      assert (k + 1) * w == k * w + w;
      if !IsDeletedRow(w, row) {
        c := c + 1;
      }
      k := k + 1;
    }
  }

  /** `delete`: the pk check, `seek`, then `w` NUL bytes written at
      `pk * w`. Slot `pk` becomes a tombstone; the file length and every
      other slot are unchanged. */
  function Delete(s: Store, pk: int): (r: Result<Store>)
    requires s.Valid()
    ensures pk >= TotalCount(s) ==> r == Err(ObjectDoesNotExist)
    ensures pk < 0 ==> r == Err(InvalidSeek)
    ensures r.Ok? <==> 0 <= pk < TotalCount(s)
    ensures r.Ok? ==> r.value.fields == s.fields && |r.value.file| == |s.file|
    ensures r.Ok? ==> IsDeletedRow(Width(s), Slot(r.value.file, Width(s), pk))
    ensures r.Ok? ==> forall j: nat :: j != pk ==>
              Slot(r.value.file, Width(s), j) == Slot(s.file, Width(s), j)
  {
    if pk >= TotalCount(s) then Err(ObjectDoesNotExist)
    else if pk < 0 then Err(InvalidSeek)
    else
      var w := Width(s);
      SlotInFile(s.file, w, pk);
      WriteSlotFrame(s.file, w, pk, Nuls(w));
      WriteSlotReadBack(s.file, w, pk, Nuls(w));
      Ok(s.(file := WriteAt(s.file, PosFromPk(w, pk), Nuls(w))))
  }

  /** After `delete(pk)`: `get(pk)` fails, `total_count()` is unchanged, and
      the live count drops by one exactly when the slot was live. */
  lemma DeleteEffects(s: Store, pk: int)
    requires s.Valid() && Delete(s, pk).Ok?
    ensures Get(Delete(s, pk).value, pk) == Err(ObjectDoesNotExist)
    ensures TotalCount(Delete(s, pk).value) == TotalCount(s)
    ensures |LiveSlotsFrom(Delete(s, pk).value.file, Width(s), 0)|
         == |LiveSlotsFrom(s.file, Width(s), 0)| - (if Get(s, pk).Ok? then 1 else 0)
  {
    var s' := Delete(s, pk).value;
    SlotInFile(s.file, Width(s), pk);
    LiveCountAfterSlotWrite(s.file, s'.file, Width(s), pk, 0);
  }

  /** Inserting an instance whose values fit into an aligned file: the pk
      it gets is the previous `total_count()`, which grows by one, and the
      new slot holds the encoded row. */
  lemma InsertAligned(s: Store, inst: Instance)
    requires s.Valid() && |s.file| % Width(s) == 0 && |inst.values| == |s.fields|
    requires forall j :: 0 <= j < |s.fields| ==> Fits(inst.values[j], s.fields[j].maxLength)
    ensures Insert(s, inst).Ok?
    ensures Insert(s, inst).value.1.pk == Some(TotalCount(s))
    ensures TotalCount(Insert(s, inst).value.0) == TotalCount(s) + 1
    ensures Slot(Insert(s, inst).value.0.file, Width(s), TotalCount(s)) == ToDb(s.fields, inst.values)
  {
    var row := ToDb(s.fields, inst.values);
    assert |row| == Width(s);
    AppendFullSlot(s.file, Width(s), row);
    WriteAtEndAppends(s.file, row);
  }

  /** `get(insert(x))`: after inserting an instance whose values fit into
      an aligned file, reading its pk back returns every value NUL-padded
      to its field's width, unless the whole row is NUL. */
  lemma InsertThenGet(s: Store, inst: Instance)
    requires s.Valid() && |s.file| % Width(s) == 0 && |inst.values| == |s.fields|
    requires forall j :: 0 <= j < |s.fields| ==> Fits(inst.values[j], s.fields[j].maxLength)
    requires !IsDeletedRow(Width(s), ToDb(s.fields, inst.values))
    ensures Insert(s, inst).Ok?
    ensures Get(Insert(s, inst).value.0, TotalCount(s)).Ok?
    ensures forall j :: 0 <= j < |s.fields| ==>
              Get(Insert(s, inst).value.0, TotalCount(s)).value.values[j]
              == Some(LJust(Text(inst.values[j]), s.fields[j].maxLength))
  {
    InsertAligned(s, inst);
    var s' := Insert(s, inst).value.0;
    var n := TotalCount(s);
    SlotInFile(s'.file, Width(s), n);
    FromDbToDb(s.fields, inst.values);
  }
}
